=== FILE: README.md ===
# DocumentsApp backend: document ingestion and retrieval

A Dafny model of the Spring backend of DocumentsApp. The backend takes file
uploads, stores each file under the `uploads` directory and records it as a
`Document` row. It serves search, lookup, listing, deletion and download of
those records. The model covers:

- the batch upload of `DocumentController.uploadFiles` and its sibling
  `DocumentService.storeFiles`. Each file gets the stored name
  `cleanPath(<token>_<original name>)`, is copied to `uploads/<name>`, and
  becomes a record titled by that name, owned by user 1, with content that
  depends on the declared MIME type. The loop stops at the first I/O failure
  and keeps everything done before it;
- the single-file `DocumentService.storeFile`, with its ".." check and its
  untokened target;
- the `Document` entity with its constructors and setters, and the
  repository: `save`, `findById`, `deleteById`, `findAll` and the
  derived title-or-content substring query;
- `downloadFile`, `createDocument`, the endpoints that hand straight
  through to the service, and `handleAllExceptions`.

Everything is a pure function over an immutable state:

- the table is `Store(docs: map<int, Document>, nextId)`;
- the disk maps each file, given by its names from the root, to its bytes.
  A relative path is followed from the working directory, so every spelling
  of a file ("uploads/../x", "x", and "/w/x" when the working directory is
  "/w") addresses the same bytes;
- a Java `null` is `None`;
- an exception is the `Error` value a request ends with.

The things the code gets from its environment are parameters:

- the random UUID token, the timestamp, and whether each copy and each
  read-back succeeds, given per file as an `Io` value;
- Spring's `cleanPath`, the platform-charset byte decoder and the working
  directory, given as a `Platform` value;
- whether a stored path converts to a URL.

Modules, in dependency order:

- `Wrappers`: the `Option` and `Result` types.
- `JavaText`: string concatenation with `null`, `startsWith` and
  `contains`.
- `FileStorage`: bytes; path text split into pieces; `UnixPath`
  normalisation and `Path.resolve`; the file a path names once "." and
  ".." are resolved; the disk; and the environment parameters.
- `Errors`: the exceptions and their messages.
- `DocumentModel`: the entity.
- `DocumentRepository`: the table.
- `Ingestion`: the upload loop shared by the two batch uploads.
- `DocumentService` and `DocumentController`.

Where the code and its design intent differ, the model follows the code:

- The "text" check is a case-sensitive prefix check.
- Bytes are decoded with the platform charset.
- `downloadFile` serves any stored path without checking that it lies
  inside `uploads` (`DocumentController.DownloadServesOutsidePath`).
- The batch uploads perform no ".." check, and `cleanPath` keeps a
  leading "..", so an upload can write outside `uploads`
  (`DocumentController.UploadWritesOutsideUploadDir`). `storeFile`'s check is a
  substring check that refuses "my..notes.txt" yet lets an absolute name
  write outside the upload directory
  (`DocumentService.StoreFileWritesAbsoluteName`).

The table's NOT NULL constraints are taken as enforced, as the entity's
annotations declare them: `title` and `content` are `nullable = false`
and the owner is `optional = false`. Two consequences are proved:

- `storeFile` never sets title, content or owner, so its `save` always
  fails after the file has been copied (`DocumentService.StoreFile`).
- `createDocument` always fails, because the owner is ignored by the JSON
  mapping and can never arrive in a request body
  (`DocumentController.CreateDocument`).

`Document.java` as written declares only the file-field accessors. The
title, content and owner setters the controller calls are modelled as plain
field updates.

## Model

| member | source | states |
|---|---|---|
| FileStorage.Resolve | DocumentsApp/backend/doc-backend/src/main/java/com/documentsapp/controller/DocumentController.java:123 | the text of the resolved path is normalised, with no doubled and no trailing separator; an absolute name gives its normalised self, an empty one the directory, any other the directory, a "/" and the normalised name; against a plain directory name it names the file reached by entering the directory and following the name's pieces |
| FileStorage.NormalizeProperties | DocumentsApp/backend/doc-backend/src/main/java/com/documentsapp/controller/DocumentController.java:123 | normalising gives clean text that stays absolute or relative and keeps the same names in order |
| FileStorage.NormalizeIdempotent | DocumentsApp/backend/doc-backend/src/main/java/com/documentsapp/controller/DocumentController.java:123 | normalising twice is normalising once |
| FileStorage.CleanIsNormal | DocumentsApp/backend/doc-backend/src/main/java/com/documentsapp/controller/DocumentController.java:123 | text with no doubled or trailing separator is left unchanged by normalising |
| FileStorage.LocateNormalize | DocumentsApp/backend/doc-backend/src/main/java/com/documentsapp/controller/DocumentController.java:123 | normalising the text of a path never changes the file it names |
| FileStorage.ResolveCollapsesSeparators | DocumentsApp/backend/doc-backend/src/main/java/com/documentsapp/controller/DocumentController.java:122-123 | a stored name "x//y/" gives the fileUrl "uploads/x/y" |
| FileStorage.RelativeNameStaysUnder | DocumentsApp/backend/doc-backend/src/main/java/com/documentsapp/controller/DocumentController.java:123 | for any working directory, a relative stored name with no ".." piece and at least one real name names a file inside its "uploads", after "." and ".." are resolved |
| FileStorage.UpSegmentEscapes | DocumentsApp/backend/doc-backend/src/main/java/com/documentsapp/controller/DocumentController.java:122-123 | a stored name "../x" resolves to "uploads/../x", which names the file x of the working directory, not a file inside "uploads" |
| FileStorage.SameFileTwoSpellings | DocumentsApp/backend/doc-backend/src/main/java/com/documentsapp/service/DocumentService.java:108 | the bare name x and the absolute text spelling out the working directory, "uploads" and x resolve to the same file |
| FileStorage.AbsoluteNameEscapes | DocumentsApp/backend/doc-backend/src/main/java/com/documentsapp/service/DocumentService.java:108 | a clean absolute name resolves to itself, the working directory plays no part, and the file lies under "uploads" exactly when the name spells out the working directory, then "uploads", then a further name; one whose first name is neither "uploads" nor the working directory's first name lies outside |
| DocumentModel.NewDocument | DocumentsApp/backend/doc-backend/src/main/java/com/documentsapp/model/Document.java:36-37 | the no-argument constructor leaves every field null: no id, no title, content or owner, no file, so the table would refuse it |
| DocumentModel.NewDocumentWith | DocumentsApp/backend/doc-backend/src/main/java/com/documentsapp/model/Document.java:39-43 | the three-argument constructor sets title, content and owner as given, leaves id and all file fields absent, and is persistable exactly when all three are non-null |
| DocumentModel.SetFilename | DocumentsApp/backend/doc-backend/src/main/java/com/documentsapp/model/Document.java:50-52 | sets filename and nothing else |
| DocumentModel.SetFiletype | DocumentsApp/backend/doc-backend/src/main/java/com/documentsapp/model/Document.java:59-61 | sets filetype and nothing else |
| DocumentModel.SetFileUrl | DocumentsApp/backend/doc-backend/src/main/java/com/documentsapp/model/Document.java:68-70 | sets fileUrl and nothing else |
| DocumentModel.SetTitle | DocumentsApp/backend/doc-backend/src/main/java/com/documentsapp/controller/DocumentController.java:135 | sets title and nothing else |
| DocumentModel.SetContent | DocumentsApp/backend/doc-backend/src/main/java/com/documentsapp/controller/DocumentController.java:136 | sets content and nothing else |
| DocumentModel.SetUser | DocumentsApp/backend/doc-backend/src/main/java/com/documentsapp/controller/DocumentController.java:142-144 | sets the owner and nothing else |
| DocumentModel.FileSettersCommuteAndKeepPersistability | DocumentsApp/backend/doc-backend/src/main/java/com/documentsapp/model/Document.java:45-70 | the three file setters commute and never change whether the record is persistable |
| DocumentRepository.EmptyStore | DocumentsApp/backend/doc-backend/src/main/java/com/documentsapp/model/Document.java:10-12 | an empty table is well formed and its identity counter starts at 1 |
| DocumentRepository.Save | DocumentsApp/backend/doc-backend/src/main/java/com/documentsapp/model/Document.java:10-33 | save succeeds exactly when title, content and owner are non-null; it stores the returned record under its id; an existing id is updated in place; anything else gets the next identity id; the table stays well formed |
| DocumentRepository.SaveKeepsOtherRows | DocumentsApp/backend/doc-backend/src/main/java/com/documentsapp/service/DocumentService.java:65-67 | saving adds or replaces only the saved record's row |
| DocumentRepository.SaveNewGetsFreshId | DocumentsApp/backend/doc-backend/src/main/java/com/documentsapp/model/Document.java:10-12 | a record without id is stored under an id no existing row had, with its fields unchanged |
| DocumentRepository.SaveThenFind | DocumentsApp/backend/doc-backend/src/main/java/com/documentsapp/service/DocumentService.java:65-77 | looking up the id a save returned yields the saved record |
| DocumentRepository.FindById | DocumentsApp/backend/doc-backend/src/main/java/com/documentsapp/service/DocumentService.java:75-77 | the lookup finds a record exactly when the id is in the table, and that record carries the id |
| DocumentRepository.DeleteById | DocumentsApp/backend/doc-backend/src/main/java/com/documentsapp/service/DocumentService.java:84-86 | deleting an existing id removes exactly that row; no other row changes and the table stays well formed; a missing id fails only under the raising policy |
| DocumentRepository.DeleteThenFind | DocumentsApp/backend/doc-backend/src/main/java/com/documentsapp/service/DocumentService.java:75-86 | after a delete the id is no longer found and every other id is found as before |
| DocumentRepository.RowsBetween | DocumentsApp/backend/doc-backend/src/main/java/com/documentsapp/service/DocumentService.java:93-95 | the rows with ids in a range, each a stored row, every one of them present, ids strictly ascending |
| DocumentRepository.FindAll | DocumentsApp/backend/doc-backend/src/main/java/com/documentsapp/service/DocumentService.java:93-95 | lists every stored row, each once, and nothing else |
| DocumentRepository.Matching | DocumentsApp/backend/doc-backend/src/main/java/com/documentsapp/repository/DocumentRepository.java:25 | keeps exactly the documents that satisfy the title-or-content condition |
| DocumentRepository.MatchingKeepsListed | DocumentsApp/backend/doc-backend/src/main/java/com/documentsapp/repository/DocumentRepository.java:25 | filtering keeps the ascending-id order and keeps only stored rows |
| DocumentRepository.FindByTitleContainingOrContentContaining | DocumentsApp/backend/doc-backend/src/main/java/com/documentsapp/repository/DocumentRepository.java:25 | returns stored rows only, each matching the title or the content argument, and every stored row that matches either |
| DocumentRepository.SearchReturnsEachDocumentOnce | DocumentsApp/backend/doc-backend/src/main/java/com/documentsapp/repository/DocumentRepository.java:25 | a row matching both arguments appears exactly once, since the query is one disjunction |
| DocumentRepository.EmptyTitleQueryListsAll | DocumentsApp/backend/doc-backend/src/main/java/com/documentsapp/repository/DocumentRepository.java:25 | with an empty title argument the query returns the whole table, because no stored title is null |
| Ingestion.UploadedRecordBySetters | DocumentsApp/backend/doc-backend/src/main/java/com/documentsapp/controller/DocumentController.java:128-144 | the record built for an upload equals the one the setter sequence produces on a fresh entity |
| Ingestion.IngestOne | DocumentsApp/backend/doc-backend/src/main/java/com/documentsapp/controller/DocumentController.java:121-150 | one loop iteration keeps the table well formed |
| Ingestion.BatchFrom | DocumentsApp/backend/doc-backend/src/main/java/com/documentsapp/controller/DocumentController.java:119-153 | the loop keeps the table well formed and, when nothing threw, saved one record per remaining file |
| Ingestion.Batch | DocumentsApp/backend/doc-backend/src/main/java/com/documentsapp/controller/DocumentController.java:119-153 | the whole loop keeps the table well formed and, without a failure, saves one record per file |
| Ingestion.FirstThrow | DocumentsApp/backend/doc-backend/src/main/java/com/documentsapp/controller/DocumentController.java:121-150 | the first file at or after a position that throws, or the end when none does |
| Ingestion.BatchFromAnswer | DocumentsApp/backend/doc-backend/src/main/java/com/documentsapp/controller/DocumentController.java:119-153 | the loop fails exactly when some file throws, names the first such file, and has saved one record for each file before it |
| Ingestion.BatchFromSavedAt | DocumentsApp/backend/doc-backend/src/main/java/com/documentsapp/controller/DocumentController.java:119-153 | the j-th saved record is the j-th planned record under the id nextId + j |
| Ingestion.BatchFromIds | DocumentsApp/backend/doc-backend/src/main/java/com/documentsapp/controller/DocumentController.java:119-153 | the loop adds exactly the consecutive ids from nextId, one per saved record |
| Ingestion.BatchFromKeepsRows | DocumentsApp/backend/doc-backend/src/main/java/com/documentsapp/controller/DocumentController.java:119-153 | rows that existed before the loop are unchanged |
| Ingestion.BatchFromSavedStay | DocumentsApp/backend/doc-backend/src/main/java/com/documentsapp/controller/DocumentController.java:119-153 | every saved record is still stored when the loop stops, even if a later file threw |
| Ingestion.BatchFromDiskElsewhere | DocumentsApp/backend/doc-backend/src/main/java/com/documentsapp/controller/DocumentController.java:125-126 | a file the loop does not write is left as it was |
| Ingestion.BatchFromDiskWritten | DocumentsApp/backend/doc-backend/src/main/java/com/documentsapp/controller/DocumentController.java:125-126 | a file the loop writes holds its bytes when the loop stops, unless a later written file went to the same place |
| Ingestion.BatchAnswer | DocumentsApp/backend/doc-backend/src/main/java/com/documentsapp/controller/DocumentController.java:119-153 | the per-file answer: files before the first failing one are saved, and the call fails exactly when a file fails, naming its stored name |
| Ingestion.BatchRecords | DocumentsApp/backend/doc-backend/src/main/java/com/documentsapp/controller/DocumentController.java:119-153 | each saved record is its file's record under the id nextId + j, in file order |
| Ingestion.BatchRecordAt | DocumentsApp/backend/doc-backend/src/main/java/com/documentsapp/controller/DocumentController.java:119-153 | the j-th saved record is the record built for the j-th file, under the id nextId + j |
| Ingestion.BatchTable | DocumentsApp/backend/doc-backend/src/main/java/com/documentsapp/controller/DocumentController.java:119-153 | earlier rows are untouched; saved records stay stored; the only new rows are one consecutive fresh id per saved record |
| Ingestion.BatchDiskElsewhere | DocumentsApp/backend/doc-backend/src/main/java/com/documentsapp/controller/DocumentController.java:125-126 | a file that no file of the request is copied to is left as it was; files are compared after "." and ".." are resolved |
| Ingestion.BatchDiskWritten | DocumentsApp/backend/doc-backend/src/main/java/com/documentsapp/controller/DocumentController.java:125-134 | when no two files are copied to the same file, every saved file's bytes are in the file its target names, and so are those of a file whose read-back failed after its copy |
| DocumentService.SearchByTitleOrContent | DocumentsApp/backend/doc-backend/src/main/java/com/documentsapp/service/DocumentService.java:55-57 | lists exactly the stored documents whose title or content contains the query, each once |
| DocumentService.EmptyQueryListsAll | DocumentsApp/backend/doc-backend/src/main/java/com/documentsapp/service/DocumentService.java:55-57 | the empty query lists every document |
| DocumentService.SaveDocument | DocumentsApp/backend/doc-backend/src/main/java/com/documentsapp/service/DocumentService.java:65-67 | succeeds exactly for a persistable record and stores what it returns |
| DocumentService.GetDocumentById | DocumentsApp/backend/doc-backend/src/main/java/com/documentsapp/service/DocumentService.java:75-77 | null exactly for an unknown id, otherwise the stored document with that id |
| DocumentService.DeleteDocument | DocumentsApp/backend/doc-backend/src/main/java/com/documentsapp/service/DocumentService.java:84-86 | an existing id is removed and only that row |
| DocumentService.GetAllDocuments | DocumentsApp/backend/doc-backend/src/main/java/com/documentsapp/service/DocumentService.java:93-95 | every stored document, each once, and nothing else |
| DocumentService.FileOnlyRecord | DocumentsApp/backend/doc-backend/src/main/java/com/documentsapp/service/DocumentService.java:111-114 | the storeFile record has filename, filetype and fileUrl set and no id, title, content or owner, so the table refuses it |
| DocumentService.StoreFile | DocumentsApp/backend/doc-backend/src/main/java/com/documentsapp/service/DocumentService.java:103-119 | a null name throws; a cleaned name containing ".." is refused with nothing changed; a failed copy reports "Could not store file"; otherwise the bytes replace whatever was in the file uploads/name names, no other file changes, and the save fails, so the table never changes |
| DocumentService.StoreFileRefusesDotsAnywhere | DocumentsApp/backend/doc-backend/src/main/java/com/documentsapp/service/DocumentService.java:104-107 | "my..notes.txt" is refused, since the check is on the substring, not on a path segment |
| DocumentService.StoreFileWritesAbsoluteName | DocumentsApp/backend/doc-backend/src/main/java/com/documentsapp/service/DocumentService.java:104-110 | an absolute name without ".." passes the check and its bytes land in the file the name spells out, whatever the working directory ("//etc/passwd" writes /etc/passwd); that file is under "uploads" exactly when the name spells out the working directory followed by "uploads" |
| DocumentService.StoreFileOverwrites | DocumentsApp/backend/doc-backend/src/main/java/com/documentsapp/service/DocumentService.java:108-110 | two storeFile calls with the same cleaned name leave the second file's bytes in the shared file |
| DocumentService.StoreFiles | DocumentsApp/backend/doc-backend/src/main/java/com/documentsapp/service/DocumentService.java:128-150 | a null array throws; otherwise the loop keeps the table well formed and, without a failure, saves one record per file |
| DocumentService.StoreFilesEmpty | DocumentsApp/backend/doc-backend/src/main/java/com/documentsapp/service/DocumentService.java:128-130 | an empty array is accepted: it answers an empty list and changes nothing |
| DocumentService.StoreFilesRecords | DocumentsApp/backend/doc-backend/src/main/java/com/documentsapp/service/DocumentService.java:131-144 | each saved record has the cleaned token-prefixed name as filename and title, the declared type, the uploads path, the placeholder content for every type, owner 1 and id nextId + j |
| DocumentService.StoreFilesFailFast | DocumentsApp/backend/doc-backend/src/main/java/com/documentsapp/service/DocumentService.java:128-150 | files up to the first failed copy are saved and stay stored; the call fails exactly then, naming that file |
| DocumentController.UploadFiles | DocumentsApp/backend/doc-backend/src/main/java/com/documentsapp/controller/DocumentController.java:114-117 | a null or empty array fails with "No files provided!" and changes nothing; the table stays well formed; success saves one record per file |
| DocumentController.UploadFilesRecords | DocumentsApp/backend/doc-backend/src/main/java/com/documentsapp/controller/DocumentController.java:122-144 | filename and title are the cleaned token-prefixed name; filetype is the declared type; fileUrl is uploads joined with the filename; content is the decoded bytes exactly for a type starting "text", else the placeholder; owner is user 1; ids follow file order |
| DocumentController.UploadFilesFailFast | DocumentsApp/backend/doc-backend/src/main/java/com/documentsapp/controller/DocumentController.java:119-153 | the first file whose copy or text read-back fails ends the call, naming it; earlier records stay stored; earlier rows are untouched; no other row appears |
| DocumentController.UploadFilesDisk | DocumentsApp/backend/doc-backend/src/main/java/com/documentsapp/controller/DocumentController.java:123-126 | files no upload is copied to are untouched; when the uploads go to distinct files, each saved file's bytes are in the file its fileUrl names, and a failed read-back leaves its copied file behind |
| DocumentController.UploadWritesOutsideUploadDir | DocumentsApp/backend/doc-backend/src/main/java/com/documentsapp/controller/DocumentController.java:121-126 | a file whose cleaned stored name is "../x" is copied to the file x of the working directory, outside "uploads", since the loop has no ".." check |
| DocumentController.DispositionRoundTrip | DocumentsApp/backend/doc-backend/src/main/java/com/documentsapp/controller/DocumentController.java:178 | a recipient reading the header's filename as a quoted-string gets the stored filename back exactly when it holds only characters a quoted-string may carry (tab, space, visible ASCII, U+0080 to U+00FF) and no '"' or backslash; "null" stands for a null filename |
| DocumentController.QuoteInNameIsMisread | DocumentsApp/backend/doc-backend/src/main/java/com/documentsapp/controller/DocumentController.java:178 | for the filename a"b the header closes the quoted-string after a and has text behind it, so it has no valid filename |
| DocumentController.UnquotableCharIsRejected | DocumentsApp/backend/doc-backend/src/main/java/com/documentsapp/controller/DocumentController.java:178 | a filename holding, at any position, a control character other than tab, DEL or a character above U+00FF yields a header with no valid filename |
| DocumentController.DownloadFile | DocumentsApp/backend/doc-backend/src/main/java/com/documentsapp/controller/DocumentController.java:163-180 | not found exactly for an unknown id or a null fileUrl; bad request exactly when the path cannot become a URL; otherwise serves the stored fileUrl with the header built from the stored filename without escaping, which reads back as that filename when it is safe |
| DocumentController.DownloadServesOutsidePath | DocumentsApp/backend/doc-backend/src/main/java/com/documentsapp/controller/DocumentController.java:168-179 | a stored fileUrl "uploads/../x" is served as is, and names the file x of the working directory, outside "uploads" |
| DocumentController.UploadThenDownload | DocumentsApp/backend/doc-backend/src/main/java/com/documentsapp/controller/DocumentController.java:119-180 | after a successful upload, downloading the j-th new id serves the j-th file's target under its stored name, and the file that target names holds its bytes |
| DocumentController.FromBody | DocumentsApp/backend/doc-backend/src/main/java/com/documentsapp/model/Document.java:30-33 | a record built from a JSON body has no owner, so the table refuses it |
| DocumentController.CreateDocument | DocumentsApp/backend/doc-backend/src/main/java/com/documentsapp/controller/DocumentController.java:82-84 | every createDocument call fails with the missing-owner error |
| DocumentController.GetAllDocuments | DocumentsApp/backend/doc-backend/src/main/java/com/documentsapp/controller/DocumentController.java:58-62 | every stored document, each once |
| DocumentController.SearchDocuments | DocumentsApp/backend/doc-backend/src/main/java/com/documentsapp/controller/DocumentController.java:71-73 | exactly the stored documents whose title or content contains the query |
| DocumentController.GetDocumentById | DocumentsApp/backend/doc-backend/src/main/java/com/documentsapp/controller/DocumentController.java:93-95 | null exactly for an unknown id, otherwise the stored document with that id |
| DocumentController.DeleteDocument | DocumentsApp/backend/doc-backend/src/main/java/com/documentsapp/controller/DocumentController.java:103-105 | an existing id is removed and only that row |
| DocumentController.HandleAllExceptions | DocumentsApp/backend/doc-backend/src/main/java/com/documentsapp/controller/DocumentController.java:188-193 | every exception becomes status 400 with a body holding only "error": the text the code writes for its own exceptions, and the library's text for an exception raised by the Java runtime or the persistence engine |
| DocumentController.UploadFailureResponse | DocumentsApp/backend/doc-backend/src/main/java/com/documentsapp/controller/DocumentController.java:114-150 | a failed upload answers "No files provided!" for an empty request, else "Failed to store file " plus the stored name of the first failing file |

## Left out

- File I/O is reduced to outcomes. `Files.copy` either completes or fails
  before writing; a partially written file is not modelled. Creating the
  upload directory at start-up, and the contents of the `UrlResource`
  served, are not modelled.
- Paths follow POSIX rules: `resolve` and the `UnixPath` normalisation of
  separators are modelled, and the file a path names is worked out
  lexically, resolving "." and ".." as `Path.normalize` does, from a
  working directory that is a parameter. Not modelled: symbolic links, which can make "a/../b" name some other
  file; a directory standing where a file is copied; Windows separators;
  and `Paths.get` rejecting a malformed path.
- FileStorage.AbsoluteNameEscapes: "under uploads" is decided against the
  working-directory parameter, lexically; a symbolic link leading back into
  the upload directory is not modelled.
- DocumentService.StoreFileWritesAbsoluteName: the same lexical reading
  of "under uploads" against the working-directory parameter.
- DocumentController.DownloadServesOutsidePath: stated for the escaping
  path "uploads/../x"; that any stored path is served as it is follows from
  `DownloadFile`'s contract, and symbolic links are not modelled.
- `cleanPath`, the UUID token, `LocalDateTime.now()` and
  `new String(bytes)` are parameters. The uniqueness of tokens is
  probabilistic, so the disk lemmas take distinct targets as a hypothesis.
- `getMessage()` texts of exceptions raised by the Java runtime or the
  persistence engine are a parameter of `HandleAllExceptions`; only the
  texts the code writes are fixed.
- Persistence is a map with an identity counter. The model leaves out:
  - transactions, lazy loading, `@Lob` and database collation (the query
    is taken as case-sensitive substring matching);
  - the 64-bit width of `Long` ids (ids are unbounded);
  - the order of `findAll` and of the title-or-content query, neither of
    which the code fixes: the derived query has no ORDER BY. The model
    lists rows by ascending id, and the `Listed` clauses of the listing and
    search contracts state that choice, not a promise of the code.
- DocumentRepository.Save: the owner is taken to be an existing user row;
  the foreign key from documents to users is not modelled. The batch
  uploads save owner id 1, which the code assumes exists and never
  creates, so in the running program every batch save fails unless that
  row is there.
- DocumentRepository.DeleteById: whether deleting an unknown id is ignored
  or raises is a parameter, since the code does not pin it down.
- DocumentController.DownloadFile: the response body is given as the served
  path, not the file's bytes; `UploadThenDownload` relates the two.
- Logging, HTTP framing beyond not-found, bad-request and ok, JSON
  serialisation of results, and concurrency between requests are not
  modelled.
- `WebConfig.java`, the application entry points and the frontend are not
  part of this model.

=== FILE: document_controller.dfy ===
/** The REST controller: the batch upload with its content rule, the file
    download, the endpoints that hand straight through to the service, and
    the handler that turns every exception into a 400 response. */
module DocumentController {
  import opened Wrappers
  import opened JavaText
  import opened Errors
  import opened FileStorage
  import opened DocumentModel
  import opened DocumentRepository
  import opened Ingestion
  import Service = DocumentService

  /** `uploadFiles`: a null or empty array is refused before anything is
      written; otherwise the shared loop runs with the controller's content
      rule (decoded bytes for a declared type starting with "text", matched
      case-sensitively; the placeholder for every other or absent type). The
      names are not checked for "..". */
  function UploadFiles(st: State, files: Option<seq<MultipartFile>>, ios: seq<Io>, p: Platform): (r: BatchOutcome)
    requires files.Some? ==> |ios| == |files.value|
    ensures files.None? || |files.value| == 0 ==> r == BatchOutcome(st, [], Some(NoFilesProvided))
    ensures Valid(st.store) ==> Valid(r.state.store)
    ensures r.failure.None? ==> files.Some? && |r.saved| == |files.value| > 0
  {
    if files.None? || |files.value| == 0 then BatchOutcome(st, [], Some(NoFilesProvided))
    else Batch(DecodeText, st, p, files.value, ios)
  }

  /** Each record the upload saves: filename and title are the cleaned
      `<token>_<original name>` (a null name spelt "null"); filetype is the
      declared type as sent; fileUrl is "uploads" joined with the filename;
      content is the decoded bytes for a text type and the placeholder with
      the upload time otherwise; the owner is user 1; ids are consecutive
      from `nextId`, in file order. */
  lemma UploadFilesRecords(st: State, files: seq<MultipartFile>, ios: seq<Io>, p: Platform)
    requires |ios| == |files|
    ensures var r := UploadFiles(st, Some(files), ios, p);
            forall j {:trigger r.saved[j]} :: 0 <= j < |r.saved| ==>
              && j < |files|
              && r.saved[j].id == Some(st.store.nextId + j)
              && r.saved[j].filename == Some(p.cleanPath(ios[j].token + "_" + Show(files[j].originalFilename)))
              && r.saved[j].title == r.saved[j].filename
              && r.saved[j].filetype == files[j].contentType
              && r.saved[j].fileUrl == Some(Resolve(UploadDir, r.saved[j].filename.value))
              && (files[j].contentType.Some? && StartsWith(files[j].contentType.value, "text") ==>
                    r.saved[j].content == Some(p.decode(files[j].bytes)))
              && (files[j].contentType.None? || !StartsWith(files[j].contentType.value, "text") ==>
                    r.saved[j].content == Some(PlaceholderPrefix + ios[j].now))
              && r.saved[j].user == Some(User(DefaultUserId))
  {
    if |files| > 0 {
      BatchRecords(DecodeText, st, p, files, ios);
    }
  }

  /** The upload is fail-fast: it saves every file up to the first whose copy
      fails or (for a text type) whose bytes cannot be read back, then fails
      naming that file. Rows that existed before are untouched and every
      record saved before the failure stays in the table, under consecutive
      fresh ids; no other row appears. */
  lemma UploadFilesFailFast(st: State, files: seq<MultipartFile>, ios: seq<Io>, p: Platform)
    requires |ios| == |files| && |files| > 0 && Valid(st.store)
    ensures var r := UploadFiles(st, Some(files), ios, p);
            var k := |r.saved|;
            var n0 := st.store.nextId;
            && (forall j :: 0 <= j < k ==> ios[j].copyOk && (IsText(files[j].contentType) ==> ios[j].readOk))
            && (r.failure.None? <==> k == |files|)
            && (r.failure.Some? ==>
                  k < |files| && (!ios[k].copyOk || (IsText(files[k].contentType) && !ios[k].readOk))
                  && r.failure.value == FailedToStore(p.cleanPath(ios[k].token + "_" + Show(files[k].originalFilename))))
            && (forall id :: id in st.store.docs ==> id in r.state.store.docs && r.state.store.docs[id] == st.store.docs[id])
            && (forall j :: 0 <= j < k ==> Stored(r.state.store, r.saved[j]))
            && (forall id :: id in r.state.store.docs <==> id in st.store.docs || n0 <= id < n0 + k)
  {
    BatchAnswer(DecodeText, st, p, files, ios);
    BatchTable(DecodeText, st, p, files, ios);
  }

  /** What the upload leaves on disk: files no upload targets are untouched;
      when the targets are distinct files, each saved file's bytes are in
      the file its fileUrl names, and a text file whose read-back failed
      after the copy is left on disk without a record. */
  lemma UploadFilesDisk(st: State, files: seq<MultipartFile>, ios: seq<Io>, p: Platform, place: Place)
    requires |ios| == |files| && |files| > 0
    ensures var r := UploadFiles(st, Some(files), ios, p);
            (forall j :: 0 <= j < |files| ==> Spot(p, files[j], ios[j]) != place) ==>
              (place in r.state.disk <==> place in st.disk)
              && (place in st.disk ==> r.state.disk[place] == st.disk[place])
    ensures var r := UploadFiles(st, Some(files), ios, p);
            var k := |r.saved|;
            DistinctTargets(p, files, ios) ==>
              && (forall j :: 0 <= j < k ==>
                    Spot(p, files[j], ios[j]) in r.state.disk && r.state.disk[Spot(p, files[j], ios[j])] == files[j].bytes)
              && (r.failure.Some? && k < |files| && ios[k].copyOk ==>
                    Spot(p, files[k], ios[k]) in r.state.disk && r.state.disk[Spot(p, files[k], ios[k])] == files[k].bytes)
  {
    if forall j :: 0 <= j < |files| ==> Spot(p, files[j], ios[j]) != place {
      BatchDiskElsewhere(DecodeText, st, p, files, ios, place);
    }
    if DistinctTargets(p, files, ios) {
      BatchDiskWritten(DecodeText, st, p, files, ios);
    }
  }

  /** The upload does not check names for "..", and cleaning keeps a
      leading "..": an original name "/../../x" under token T cleans to
      "../x", so the copy goes to "uploads/../x", the file "x" in the working
      directory, outside the upload directory. */
  lemma UploadWritesOutsideUploadDir(st: State, f: MultipartFile, io: Io, p: Platform, x: string)
    requires SingleName(x) && StoredName(p, f, io) == "../" + x && io.copyOk
    ensures var r := UploadFiles(st, Some([f]), [io], p);
            p.cwd + [x] in r.state.disk && r.state.disk[p.cwd + [x]] == f.bytes
    ensures !UnderUploadDir(p.cwd, Target(p, f, io))
  {
    UpSegmentEscapes(p.cwd, x);
    BatchDiskWritten(DecodeText, st, p, [f], [io]);
    BatchAnswer(DecodeText, st, p, [f], [io]);
  }

  /** What `downloadFile` answers. */
  datatype Download =
    | NotFound
    | BadRequest
    | Attachment(disposition: string, location: string)

  const DispositionPrefix: string := "attachment; filename=\""

  /** The Content-Disposition value naming `filename`, written without any
      escaping; a null filename is spelt "null". */
  function Disposition(filename: Option<string>): string
  {
    DispositionPrefix + Show(filename) + "\""
  }

  /** The characters a quoted-string may carry (section 3.2.6 of RFC 7230):
      horizontal tab, space, visible US-ASCII, and the obsolete text
      U+0080 to U+00FF. Other control characters and DEL are excluded. */
  predicate QuotableChar(c: char)
  {
    c == '\t' || (' ' <= c <= '~') || ('\U{80}' <= c <= '\U{FF}')
  }

  /** The body of a quoted-string after its opening quote: a backslash
      quotes the next quotable character, the first unquoted '"' closes the
      string and must end the header value, and every other character must
      be quotable. */
  function QuotedBody(s: string): Option<string>
    decreases |s|
  {
    if |s| == 0 then None
    else if s[0] == '"' then (if |s| == 1 then Some("") else None)
    else if !QuotableChar(s[0]) then None
    else if s[0] == '\\' then
      if |s| >= 2 && QuotableChar(s[1]) then
        match QuotedBody(s[2..])
        case Some(t) => Some([s[1]] + t)
        case None => None
      else None
    else
      match QuotedBody(s[1..])
      case Some(t) => Some([s[0]] + t)
      case None => None
  }

  /** How a recipient reads the `filename` parameter of a header of this
      shape (section 4.1 of RFC 6266): the value after `filename=` is a
      quoted-string. */
  function DispositionFilename(header: string): Option<string>
  {
    if StartsWith(header, DispositionPrefix) then QuotedBody(header[|DispositionPrefix|..]) else None
  }

  /** A name that survives being placed between quotes unescaped: quotable
      characters only, none of them '"' or a backslash. */
  predicate SafeName(name: string)
  {
    forall i :: 0 <= i < |name| ==> QuotableChar(name[i]) && name[i] != '"' && name[i] != '\\'
  }

  /** A safe name followed by the closing quote reads back as itself. */
  lemma {:induction false} QuotedSafeName(name: string)
    requires SafeName(name)
    ensures QuotedBody(name + "\"") == Some(name)
    decreases |name|
  {
    if |name| > 0 {
      assert (name + "\"")[1..] == name[1..] + "\"";
      QuotedSafeName(name[1..]);
      assert [name[0]] + name[1..] == name;
    }
  }

  /** Reading never gains characters, and reads as many characters as there
      are before the closing quote only when none of them is quoted, so the
      result is then that text and it is safe. */
  lemma {:induction false} QuotedBodyShape(s: string, t: string)
    requires QuotedBody(s) == Some(t)
    ensures |t| < |s|
    ensures |t| == |s| - 1 ==> t == s[..|s| - 1] && SafeName(t)
    decreases |s|
  {
    if s[0] == '\\' {
      QuotedBodyShape(s[2..], t[1..]);
    } else if s[0] != '"' {
      QuotedBodyShape(s[1..], t[1..]);
      if |t| == |s| - 1 {
        assert t == [s[0]] + t[1..];
        assert s[..|s| - 1] == [s[0]] + s[1..][..|s| - 2];
      }
    }
  }

  /** A client reading the header gets back the stored filename exactly when
      the name holds only quotable characters and no '"' or backslash; any
      other character makes it read something else or nothing. */
  lemma DispositionRoundTrip(filename: Option<string>)
    ensures DispositionFilename(Disposition(filename)) == Some(Show(filename)) <==> SafeName(Show(filename))
  {
    var name := Show(filename);
    var h := Disposition(filename);
    assert h[..|DispositionPrefix|] == DispositionPrefix;
    assert h[|DispositionPrefix|..] == name + "\"";
    if SafeName(name) {
      QuotedSafeName(name);
    } else if DispositionFilename(h) == Some(name) {
      QuotedBodyShape(name + "\"", name);
    }
  }

  /** The file name `a"b` is sent as `filename="a"b"`, which ends the
      quoted-string after `a` and leaves text behind it: not a valid value. */
  lemma QuoteInNameIsMisread()
    ensures DispositionFilename(Disposition(Some("a\"b"))) == None
  {
    var h := Disposition(Some("a\"b"));
    assert h[..|DispositionPrefix|] == DispositionPrefix;
    assert h[|DispositionPrefix|..] == "a\"b\"";
    assert QuotedBody("a\"b\"") == None by {
      assert "a\"b\""[1..] == "\"b\"";
    }
  }

  /** A name holding a character a quoted-string cannot carry (a control
      character such as U+0001, DEL, or anything above U+00FF) anywhere
      does not read back at all. */
  lemma UnquotableCharIsRejected(name: string, i: nat)
    requires i < |name| && !QuotableChar(name[i])
    ensures DispositionFilename(Disposition(Some(name))) == None
  {
    var h := Disposition(Some(name));
    assert h[..|DispositionPrefix|] == DispositionPrefix;
    assert h[|DispositionPrefix|..] == name + "\"";
    UnquotableStopsRead(name, i);
  }

  /** Whatever precedes it, an unquotable character before the closing
      quote stops the read: either it is reached as an ordinary character
      or behind a backslash, or the read has already failed or closed. */
  lemma {:induction false} UnquotableStopsRead(name: string, i: nat)
    requires i < |name| && !QuotableChar(name[i])
    ensures QuotedBody(name + "\"") == None
    decreases |name|
  {
    var s := name + "\"";
    if name[0] == '\\' && i >= 2 {
      assert s[2..] == name[2..] + "\"";
      UnquotableStopsRead(name[2..], i - 2);
    } else if name[0] != '\\' && name[0] != '"' && i >= 1 {
      assert s[1..] == name[1..] + "\"";
      UnquotableStopsRead(name[1..], i - 1);
    }
  }

  /** `downloadFile`: an unknown id or a record without fileUrl is not found;
      a path that cannot be turned into a URL (`uriOk` false) is a bad
      request; otherwise the stored path is served as an attachment named by
      the stored filename, written into the header unescaped. The path is not
      checked to lie inside "uploads". */
  function DownloadFile(s: Store, id: int, uriOk: bool): (r: Download)
    requires Valid(s)
    ensures r.NotFound? <==> id !in s.docs || s.docs[id].fileUrl.None?
    ensures r.BadRequest? <==> id in s.docs && s.docs[id].fileUrl.Some? && !uriOk
    ensures r.Attachment? ==>
              && r.location == s.docs[id].fileUrl.value
              && r.disposition == Disposition(s.docs[id].filename)
              && (SafeName(Show(s.docs[id].filename)) ==> DispositionFilename(r.disposition) == Some(Show(s.docs[id].filename)))
  {
    match Service.GetDocumentById(s, id)
    case None => NotFound
    case Some(doc) =>
      if doc.fileUrl.None? then NotFound
      else if !uriOk then BadRequest
      else
        DispositionRoundTrip(doc.filename);
        Attachment(Disposition(doc.filename), doc.fileUrl.value)
  }

  /** A stored path that climbs out of the upload directory is served as
      it is: "uploads/../x" is the file "x" of the working directory. */
  lemma DownloadServesOutsidePath(s: Store, id: int, cwd: Place, x: string)
    requires Valid(s) && id in s.docs && SingleName(x)
    requires s.docs[id].fileUrl == Some(UploadDir + "/../" + x)
    ensures DownloadFile(s, id, true) == Attachment(Disposition(s.docs[id].filename), UploadDir + "/../" + x)
    ensures Where(cwd, UploadDir + "/../" + x) == cwd + [x]
    ensures !UnderUploadDir(cwd, UploadDir + "/../" + x)
  {
    UpSegmentEscapes(cwd, x);
  }

  /** Upload then download: after a successful upload with distinct targets,
      downloading the `j`-th new id serves the `j`-th file's target, where
      its bytes are, under its stored name. */
  lemma UploadThenDownload(st: State, files: seq<MultipartFile>, ios: seq<Io>, p: Platform, j: nat, uriOk: bool)
    requires Valid(st.store) && |ios| == |files| && j < |files|
    requires DistinctTargets(p, files, ios)
    requires UploadFiles(st, Some(files), ios, p).failure.None?
    ensures var r := UploadFiles(st, Some(files), ios, p);
            var name := StoredName(p, files[j], ios[j]);
            var target := Target(p, files[j], ios[j]);
            && DownloadFile(r.state.store, st.store.nextId + j, uriOk)
               == (if uriOk then Attachment(Disposition(Some(name)), target) else BadRequest)
            && Where(p.cwd, target) in r.state.disk && r.state.disk[Where(p.cwd, target)] == files[j].bytes
  {
    var r := UploadFiles(st, Some(files), ios, p);
    BatchAnswer(DecodeText, st, p, files, ios);
    BatchRecords(DecodeText, st, p, files, ios);
    BatchTable(DecodeText, st, p, files, ios);
    BatchDiskWritten(DecodeText, st, p, files, ios);
    assert r.saved[j] == UploadedRecord(DecodeText, p, files[j], ios[j]).(id := Some(st.store.nextId + j));
    assert Stored(r.state.store, r.saved[j]);
  }

  /** The JSON body of `createDocument`. The owner is ignored by the JSON
      mapping, so it is never read from a request. */
  datatype DocumentBody = DocumentBody(
    id: Option<int>,
    title: Option<string>,
    content: Option<string>,
    filename: Option<string>,
    filetype: Option<string>,
    fileUrl: Option<string>)

  /** The entity the JSON mapping builds from a body: the owner stays null. */
  function FromBody(b: DocumentBody): (d: Document)
    ensures d.user.None? && !Persistable(d)
    ensures d.(user := None) == Document(b.id, b.title, b.content, b.filename, b.filetype, b.fileUrl, None)
  {
    Document(b.id, b.title, b.content, b.filename, b.filetype, b.fileUrl, None)
  }

  /** `createDocument`: saves the body as sent. Since the owner can never
      arrive through JSON and the table requires one, every call fails and
      the table is unchanged; a metadata-only document cannot be created
      this way. */
  function CreateDocument(s: Store, b: DocumentBody): (r: Result<Saved, Error>)
    ensures r == Failure(MissingRequired)
  {
    Service.SaveDocument(s, FromBody(b))
  }

  /** `getAllDocuments`. */
  function GetAllDocuments(s: Store): (r: seq<Document>)
    requires Valid(s)
    ensures Listed(r)
    ensures forall d :: d in r <==> Stored(s, d)
  {
    Service.GetAllDocuments(s)
  }

  /** `searchDocuments`: the service's title-or-content search. */
  function SearchDocuments(s: Store, query: string): (r: seq<Document>)
    requires Valid(s)
    ensures Listed(r)
    ensures forall d :: d in r <==> Stored(s, d) && Service.Hit(d, query)
  {
    Service.SearchByTitleOrContent(s, query)
  }

  /** `getDocumentById`: the stored document, or null (an empty body). */
  function GetDocumentById(s: Store, id: int): (r: Option<Document>)
    requires Valid(s)
    ensures r.None? <==> id !in s.docs
    ensures r.Some? ==> Stored(s, r.value) && r.value.id == Some(id)
  {
    Service.GetDocumentById(s, id)
  }

  /** `deleteDocument`. */
  function DeleteDocument(s: Store, id: int, missing: DeleteMissing): (r: Result<Store, Error>)
    requires Valid(s)
    ensures id in s.docs ==> r.Success?
    ensures r.Success? ==> Valid(r.value) && r.value.docs.Keys == s.docs.Keys - {id}
    ensures r.Success? ==> forall k :: k in r.value.docs ==> r.value.docs[k] == s.docs[k]
  {
    Service.DeleteDocument(s, id, missing)
  }

  const BadRequestStatus: int := 400

  /** A 400 response whose body maps "error" to the exception's message. */
  datatype ErrorResponse = ErrorResponse(status: int, body: map<string, string>)

  /** `handleAllExceptions`: every exception becomes a 400 response with a
      single "error" entry holding its message: the text this code writes,
      or, for an exception raised by the Java runtime or the persistence
      engine, the text that library reports (`runtimeText`). */
  function HandleAllExceptions(e: Error, runtimeText: Error -> string): (r: ErrorResponse)
    ensures r.status == BadRequestStatus
    ensures r.body.Keys == {"error"}
    ensures WrittenMessage(e).Some? ==> r.body["error"] == WrittenMessage(e).value
    ensures WrittenMessage(e).None? ==> r.body["error"] == runtimeText(e)
  {
    var text := match WrittenMessage(e)
      case Some(m) => m
      case None => runtimeText(e);
    ErrorResponse(BadRequestStatus, map["error" := text])
  }

  /** What a client sees when an upload fails: "No files provided!" for a
      null or empty array, otherwise "Failed to store file " followed by the
      stored name of the first file that could not be stored. */
  lemma UploadFailureResponse(st: State, files: Option<seq<MultipartFile>>, ios: seq<Io>, p: Platform, runtimeText: Error -> string)
    requires files.Some? ==> |ios| == |files.value|
    requires UploadFiles(st, files, ios, p).failure.Some?
    ensures var r := UploadFiles(st, files, ios, p);
            var body := HandleAllExceptions(r.failure.value, runtimeText).body;
            if files.None? || |files.value| == 0 then body["error"] == "No files provided!"
            else
              var k := |r.saved|;
              k < |files.value|
              && body["error"] == "Failed to store file " + StoredName(p, files.value[k], ios[k])
  {
    if files.Some? && |files.value| > 0 {
      BatchAnswer(DecodeText, st, p, files.value, ios);
    }
  }
}

=== FILE: document_model.dfy ===
/** The `Document` entity: an immutable record whose Java setters become
    functions returning the updated record. A null column is `None`. */
module DocumentModel {
  import opened Wrappers

  /** Only the id of the owning user matters to the document code. */
  datatype User = User(id: int)

  /** The owner every upload is attributed to. */
  const DefaultUserId: int := 1

  datatype Document = Document(
    id: Option<int>,           // generated by the store; None until saved
    title: Option<string>,     // non-nullable column
    content: Option<string>,   // non-nullable column
    filename: Option<string>,  // nullable
    filetype: Option<string>,  // nullable
    fileUrl: Option<string>,   // nullable: a path on disk or a URL
    user: Option<User>)        // mandatory many-to-one owner

  /** A record the store accepts: both non-nullable columns and the owner are set. */
  predicate Persistable(d: Document)
  {
    d.title.Some? && d.content.Some? && d.user.Some?
  }

  /** No file is attached to the record. */
  predicate NoFile(d: Document)
  {
    d.filename.None? && d.filetype.None? && d.fileUrl.None?
  }

  /** The no-argument constructor: every field null. */
  function NewDocument(): (d: Document)
    ensures d.id.None? && NoFile(d) && !Persistable(d)
    ensures d.title.None? && d.content.None? && d.user.None?
  {
    Document(None, None, None, None, None, None, None)
  }

  /** The three-argument constructor: title, content and owner as given
      (each may be null in Java), no id and no file. */
  function NewDocumentWith(title: Option<string>, content: Option<string>, user: Option<User>): (d: Document)
    ensures d.id.None? && NoFile(d)
    ensures d.title == title && d.content == content && d.user == user
    ensures Persistable(d) <==> title.Some? && content.Some? && user.Some?
  {
    Document(None, title, content, None, None, None, user)
  }

  function SetFilename(d: Document, v: Option<string>): (r: Document)
    ensures r.filename == v
    ensures r.(filename := d.filename) == d
  {
    d.(filename := v)
  }

  function SetFiletype(d: Document, v: Option<string>): (r: Document)
    ensures r.filetype == v
    ensures r.(filetype := d.filetype) == d
  {
    d.(filetype := v)
  }

  function SetFileUrl(d: Document, v: Option<string>): (r: Document)
    ensures r.fileUrl == v
    ensures r.(fileUrl := d.fileUrl) == d
  {
    d.(fileUrl := v)
  }

  function SetTitle(d: Document, v: Option<string>): (r: Document)
    ensures r.title == v
    ensures r.(title := d.title) == d
  {
    d.(title := v)
  }

  function SetContent(d: Document, v: Option<string>): (r: Document)
    ensures r.content == v
    ensures r.(content := d.content) == d
  {
    d.(content := v)
  }

  function SetUser(d: Document, v: Option<User>): (r: Document)
    ensures r.user == v
    ensures r.(user := d.user) == d
  {
    d.(user := v)
  }

  /** The file-field setters touch disjoint fields, so their order does not
      matter, and setting none of the required fields leaves the record
      exactly as persistable as before. */
  lemma FileSettersCommuteAndKeepPersistability(d: Document, name: Option<string>, kind: Option<string>, url: Option<string>)
    ensures SetFileUrl(SetFiletype(SetFilename(d, name), kind), url)
         == SetFilename(SetFiletype(SetFileUrl(d, url), kind), name)
    ensures Persistable(SetFileUrl(SetFiletype(SetFilename(d, name), kind), url)) <==> Persistable(d)
  {
  }
}

=== FILE: document_repository.dfy ===
/** The JPA repository behind the service: a table of documents keyed by a
    generated id, with the derived title-or-content substring query. */
module DocumentRepository {
  import opened Wrappers
  import opened JavaText
  import opened Errors
  import opened DocumentModel

  /** The persisted rows and the next value of the identity column. */
  datatype Store = Store(docs: map<int, Document>, nextId: int)

  /** Identity ids start at 1 and only grow; each row carries its own key and
      satisfies the non-null constraints of the table. */
  ghost predicate Valid(s: Store)
  {
    && 1 <= s.nextId
    && forall k :: k in s.docs ==>
         1 <= k < s.nextId && s.docs[k].id == Some(k) && Persistable(s.docs[k])
  }

  /** `d` is the row stored under its own id. */
  ghost predicate Stored(s: Store, d: Document)
  {
    d.id.Some? && d.id.value in s.docs && s.docs[d.id.value] == d
  }

  /** A result list in which every document has an id and ids strictly
      ascend, so no document is listed twice. */
  ghost predicate Listed(ds: seq<Document>)
  {
    && (forall i :: 0 <= i < |ds| ==> ds[i].id.Some?)
    && (forall i, j :: 0 <= i < j < |ds| ==> ds[i].id.value < ds[j].id.value)
  }

  function EmptyStore(): (s: Store)
    ensures Valid(s) && s.docs == map[] && s.nextId == 1
  {
    Store(map[], 1)
  }

  datatype Saved = Saved(store: Store, doc: Document)

  /** The record names an existing row, so `save` merges into it. */
  predicate Updates(s: Store, d: Document)
  {
    d.id.Some? && d.id.value in s.docs
  }

  /** `save`: a record whose id names an existing row replaces that row;
      any other record is inserted under a freshly generated id. A record
      with a null title, content or owner violates the table's constraints
      and nothing changes. */
  function Save(s: Store, d: Document): (r: Result<Saved, Error>)
    ensures r.Success? <==> Persistable(d)
    ensures r.Failure? ==> r.error == MissingRequired
    ensures r.Success? ==> Stored(r.value.store, r.value.doc) && r.value.doc.(id := d.id) == d
    ensures r.Success? && Updates(s, d) ==> r.value.doc == d && r.value.store.nextId == s.nextId
    ensures r.Success? && !Updates(s, d) ==>
              r.value.doc.id == Some(s.nextId) && r.value.store.nextId == s.nextId + 1
    ensures r.Success? && Valid(s) ==> Valid(r.value.store)
  {
    if !Persistable(d) then Failure(MissingRequired)
    else if Updates(s, d) then
      Success(Saved(Store(s.docs[d.id.value := d], s.nextId), d))
    else
      var saved := d.(id := Some(s.nextId));
      Success(Saved(Store(s.docs[s.nextId := saved], s.nextId + 1), saved))
  }

  /** `findById(id).orElse(null)`. */
  function FindById(s: Store, id: int): (r: Option<Document>)
    requires Valid(s)
    ensures r.Some? <==> id in s.docs
    ensures r.Some? ==> Stored(s, r.value) && r.value.id == Some(id)
  {
    if id in s.docs then Some(s.docs[id]) else None
  }

  /** How `deleteById` treats an id with no row: depending on the Spring Data
      version it is ignored or reported as an error. */
  datatype DeleteMissing = Ignore | Raise

  /** `deleteById`: the row with that id disappears and every other row stays. */
  function DeleteById(s: Store, id: int, missing: DeleteMissing): (r: Result<Store, Error>)
    requires Valid(s)
    ensures id in s.docs ==> r.Success?
    ensures r.Success? ==>
              (Valid(r.value) && id !in r.value.docs
               && r.value.docs.Keys == s.docs.Keys - {id}
               && r.value.nextId == s.nextId)
    ensures r.Success? ==> forall k :: k in r.value.docs ==> r.value.docs[k] == s.docs[k]
    ensures id !in s.docs && missing == Raise ==> r == Failure(NoSuchEntity)
  {
    if id in s.docs then Success(Store(s.docs - {id}, s.nextId))
    else if missing == Raise then Failure(NoSuchEntity)
    else Success(s)
  }

  /** Every document of `ds` is a stored row. */
  ghost predicate AllStored(s: Store, ds: seq<Document>)
  {
    forall i :: 0 <= i < |ds| ==> Stored(s, ds[i])
  }

  /** The stored rows whose ids lie in `[lo, hi)`, by ascending id. */
  function RowsBetween(s: Store, lo: int, hi: int): (r: seq<Document>)
    requires Valid(s)
    ensures AllStored(s, r) && Listed(r)
    ensures forall i :: 0 <= i < |r| ==> lo <= r[i].id.value < hi
    ensures forall k :: lo <= k < hi && k in s.docs ==> s.docs[k] in r
    decreases hi - lo
  {
    if lo >= hi then []
    else if lo in s.docs then [s.docs[lo]] + RowsBetween(s, lo + 1, hi)
    else RowsBetween(s, lo + 1, hi)
  }

  /** `findAll`: every stored document exactly once. The table's own order is
      not fixed by the code; the model lists rows by ascending id. */
  function FindAll(s: Store): (r: seq<Document>)
    requires Valid(s)
    ensures AllStored(s, r) && Listed(r)
    ensures forall k :: k in s.docs ==> s.docs[k] in r
  {
    RowsBetween(s, 1, s.nextId)
  }

  /** The derived query's condition: the title contains `title` or the
      content contains `content`. A null column matches nothing. */
  predicate Matches(d: Document, title: string, content: string)
  {
    || (d.title.Some? && Contains(d.title.value, title))
    || (d.content.Some? && Contains(d.content.value, content))
  }

  /** The documents of `ds` that satisfy `Matches`, in their original order. */
  function Matching(ds: seq<Document>, title: string, content: string): (r: seq<Document>)
    ensures forall d :: d in r <==> d in ds && Matches(d, title, content)
  {
    if |ds| == 0 then []
    else if Matches(ds[0], title, content) then [ds[0]] + Matching(ds[1..], title, content)
    else Matching(ds[1..], title, content)
  }

  /** Filtering keeps the ascending-id order and keeps only stored rows. */
  lemma {:induction false} MatchingKeepsListed(s: Store, ds: seq<Document>, title: string, content: string)
    requires Listed(ds) && AllStored(s, ds)
    ensures Listed(Matching(ds, title, content)) && AllStored(s, Matching(ds, title, content))
  {
    if |ds| > 0 {
      var tail := ds[1..];
      assert AllStored(s, tail) by {
        forall i | 0 <= i < |tail|
          ensures Stored(s, tail[i])
        {
          assert tail[i] == ds[i + 1];
        }
      }
      assert Listed(tail) by {
        forall i, j | 0 <= i < j < |tail|
          ensures tail[i].id.value < tail[j].id.value
        {
          assert tail[i] == ds[i + 1] && tail[j] == ds[j + 1];
        }
      }
      MatchingKeepsListed(s, tail, title, content);
      var rest := Matching(tail, title, content);
      if Matches(ds[0], title, content) {
        var r := [ds[0]] + rest;
        assert AllStored(s, r) by {
          forall i | 0 <= i < |r|
            ensures Stored(s, r[i])
          {
            if i > 0 {
              assert r[i] == rest[i - 1];
            }
          }
        }
        forall j | 0 <= j < |rest|
          ensures ds[0].id.value < rest[j].id.value
        {
          assert rest[j] in tail;
          var m :| 0 <= m < |tail| && tail[m] == rest[j];
          assert ds[m + 1] == rest[j];
        }
        forall i, j | 0 <= i < j < |r|
          ensures r[i].id.value < r[j].id.value
        {
          if i == 0 {
            assert r[j] == rest[j - 1];
          } else {
            assert r[i] == rest[i - 1] && r[j] == rest[j - 1];
          }
        }
      }
    }
  }

  /** `findByTitleContainingOrContentContaining(title, content)`: exactly the
      stored documents whose title contains `title` or whose content contains
      `content`, each once. */
  function FindByTitleContainingOrContentContaining(s: Store, title: string, content: string): (r: seq<Document>)
    requires Valid(s)
    ensures AllStored(s, r) && Listed(r)
    ensures forall i :: 0 <= i < |r| ==> Matches(r[i], title, content)
    ensures forall k :: k in s.docs && Matches(s.docs[k], title, content) ==> s.docs[k] in r
  {
    var all := FindAll(s);
    MatchingKeepsListed(s, all, title, content);
    Matching(all, title, content)
  }

  /** In a listed sequence every element occurs exactly once. */
  lemma {:induction false} ListedOccursOnce(ds: seq<Document>, d: Document)
    requires Listed(ds) && d in ds
    ensures multiset(ds)[d] == 1
  {
    assert ds == [ds[0]] + ds[1..];
    var tail := ds[1..];
    assert Listed(tail) by {
      forall i, j | 0 <= i < j < |tail|
        ensures tail[i].id.value < tail[j].id.value
      {
        assert tail[i] == ds[i + 1] && tail[j] == ds[j + 1];
      }
    }
    if d == ds[0] {
      forall m | 0 <= m < |tail|
        ensures tail[m] != d
      {
        assert tail[m] == ds[m + 1];
      }
      assert d !in tail;
      assert multiset(tail)[d] == 0;
    } else {
      ListedOccursOnce(tail, d);
    }
  }

  /** A document matching both the title and the content argument is still
      returned once: the query is one disjunction, not a union of two lists. */
  lemma SearchReturnsEachDocumentOnce(s: Store, title: string, content: string, k: int)
    requires Valid(s) && k in s.docs && Matches(s.docs[k], title, content)
    ensures multiset(FindByTitleContainingOrContentContaining(s, title, content))[s.docs[k]] == 1
  {
    ListedOccursOnce(FindByTitleContainingOrContentContaining(s, title, content), s.docs[k]);
  }

  /** Filtering by a condition every element meets keeps the whole list. */
  lemma {:induction false} MatchingAll(ds: seq<Document>, content: string)
    requires forall i :: 0 <= i < |ds| ==> ds[i].title.Some?
    ensures Matching(ds, "", content) == ds
  {
    if |ds| > 0 {
      ContainsEmpty(ds[0].title.value);
      MatchingAll(ds[1..], content);
    }
  }

  /** With an empty title argument every stored document is returned, since
      every title is non-null and contains the empty string. */
  lemma EmptyTitleQueryListsAll(s: Store, content: string)
    requires Valid(s)
    ensures FindByTitleContainingOrContentContaining(s, "", content) == FindAll(s)
  {
    MatchingAll(FindAll(s), content);
  }

  /** Saving and then looking up the returned id gives back the saved record. */
  lemma SaveThenFind(s: Store, d: Document)
    requires Valid(s) && Persistable(d)
    ensures Save(s, d).Success?
    ensures FindById(Save(s, d).value.store, Save(s, d).value.doc.id.value) == Some(Save(s, d).value.doc)
  {
  }

  /** Saving touches only the row of the saved record. */
  lemma SaveKeepsOtherRows(s: Store, d: Document, k: int)
    requires Save(s, d).Success?
    ensures k in Save(s, d).value.store.docs <==> k in s.docs || Some(k) == Save(s, d).value.doc.id
    ensures k in s.docs && Some(k) != Save(s, d).value.doc.id ==> Save(s, d).value.store.docs[k] == s.docs[k]
  {
  }

  /** A record without an id is inserted under an id no row had before. */
  lemma SaveNewGetsFreshId(s: Store, d: Document)
    requires Valid(s) && Persistable(d) && d.id.None?
    ensures Save(s, d).Success?
    ensures Save(s, d).value.doc.id.value !in s.docs
    ensures Save(s, d).value.doc == d.(id := Some(s.nextId))
  {
  }

  /** After a delete the id is no longer found, and other ids still are. */
  lemma DeleteThenFind(s: Store, id: int, missing: DeleteMissing, other: int)
    requires Valid(s) && DeleteById(s, id, missing).Success? && other != id
    ensures FindById(DeleteById(s, id, missing).value, id) == None
    ensures FindById(DeleteById(s, id, missing).value, other) == FindById(s, other)
  {
  }
}

=== FILE: document_service.dfy ===
/** The service layer: thin wrappers over the repository, plus the two ways
    of storing uploaded files (`storeFile` for one file under its own name,
    `storeFiles` for a batch under token-prefixed names). */
module DocumentService {
  import opened Wrappers
  import opened JavaText
  import opened Errors
  import opened FileStorage
  import opened DocumentModel
  import opened DocumentRepository
  import opened Ingestion

  /** A stored document is a hit for `query` when its title or its content
      contains the query. */
  predicate Hit(d: Document, query: string)
  {
    Matches(d, query, query)
  }

  /** `searchByTitleOrContent`: the repository query with the same string as
      both the title and the content argument. The result lists exactly the
      stored hits, each once. */
  function SearchByTitleOrContent(s: Store, query: string): (r: seq<Document>)
    requires Valid(s)
    ensures Listed(r)
    ensures forall d :: d in r <==> Stored(s, d) && Hit(d, query)
  {
    var r := FindByTitleContainingOrContentContaining(s, query, query);
    assert forall d :: d in r ==> Stored(s, d) by {
      forall d | d in r
        ensures Stored(s, d)
      {
        var i :| 0 <= i < |r| && r[i] == d;
      }
    }
    r
  }

  /** With the empty query the search lists every document. */
  lemma EmptyQueryListsAll(s: Store)
    requires Valid(s)
    ensures SearchByTitleOrContent(s, "") == GetAllDocuments(s)
  {
    EmptyTitleQueryListsAll(s, "");
  }

  /** `saveDocument`: `save` on the repository. */
  function SaveDocument(s: Store, d: Document): (r: Result<Saved, Error>)
    ensures r.Success? <==> Persistable(d)
    ensures r.Failure? ==> r.error == MissingRequired
    ensures r.Success? ==> Stored(r.value.store, r.value.doc)
    ensures r.Success? && Valid(s) ==> Valid(r.value.store)
  {
    Save(s, d)
  }

  /** `getDocumentById`: the stored document, or null for an unknown id. */
  function GetDocumentById(s: Store, id: int): (r: Option<Document>)
    requires Valid(s)
    ensures r.None? <==> id !in s.docs
    ensures r.Some? ==> Stored(s, r.value) && r.value.id == Some(id)
  {
    FindById(s, id)
  }

  /** `deleteDocument`: `deleteById` on the repository. */
  function DeleteDocument(s: Store, id: int, missing: DeleteMissing): (r: Result<Store, Error>)
    requires Valid(s)
    ensures id in s.docs ==> r.Success?
    ensures r.Success? ==> Valid(r.value) && r.value.docs.Keys == s.docs.Keys - {id}
    ensures r.Success? ==> forall k :: k in r.value.docs ==> r.value.docs[k] == s.docs[k]
  {
    DeleteById(s, id, missing)
  }

  /** `getAllDocuments`: every stored document, each once. */
  function GetAllDocuments(s: Store): (r: seq<Document>)
    requires Valid(s)
    ensures Listed(r)
    ensures forall d :: d in r <==> Stored(s, d)
  {
    var r := FindAll(s);
    assert forall d :: d in r ==> Stored(s, d) by {
      forall d | d in r
        ensures Stored(s, d)
      {
        var i :| 0 <= i < |r| && r[i] == d;
      }
    }
    r
  }

  /** The record `storeFile` builds: a fresh entity with only the three file
      fields set. Title, content and owner stay null. */
  function FileOnlyRecord(name: string, contentType: Option<string>, target: string): (d: Document)
    ensures d.id.None? && d.title.None? && d.content.None? && d.user.None?
    ensures d.filename == Some(name) && d.filetype == contentType && d.fileUrl == Some(target)
    ensures !Persistable(d)
  {
    SetFileUrl(SetFiletype(SetFilename(NewDocument(), Some(name)), contentType), Some(target))
  }

  /** The state after a request together with what it answered. */
  datatype Reply = Reply(state: State, result: Result<Document, Error>)

  /** `storeFile`: clean the client's name; refuse it if it contains ".."
      anywhere; copy the bytes to the file `uploads/<name>` names (no token,
      so an existing file of that name is replaced); save the file-only
      record. A null name
      makes `contains` throw. A failed copy reports "Could not store file".
      The record lacks the table's required columns, so `save` always fails
      and the copied file is left without a record. */
  function StoreFile(st: State, f: MultipartFile, copyOk: bool, p: Platform): (r: Reply)
    ensures r.result.Failure? && r.state.store == st.store
    ensures f.originalFilename.None? ==> r == Reply(st, Failure(NullReference))
    ensures f.originalFilename.Some? && Contains(p.cleanPath(f.originalFilename.value), "..") ==>
              r == Reply(st, Failure(InvalidPathSequence(p.cleanPath(f.originalFilename.value))))
    ensures f.originalFilename.Some? && !Contains(p.cleanPath(f.originalFilename.value), "..") ==>
              var name := p.cleanPath(f.originalFilename.value);
              var spot := Where(p.cwd, Resolve(UploadDir, name));
              if copyOk then
                && r.result == Failure(MissingRequired)
                && spot in r.state.disk && r.state.disk[spot] == f.bytes
                && (forall place :: place != spot ==> (place in r.state.disk <==> place in st.disk))
                && (forall place :: place != spot && place in st.disk ==> r.state.disk[place] == st.disk[place])
              else r == Reply(st, Failure(CouldNotStore(name)))
  {
    if f.originalFilename.None? then Reply(st, Failure(NullReference))
    else
      var name := p.cleanPath(f.originalFilename.value);
      if Contains(name, "..") then Reply(st, Failure(InvalidPathSequence(name)))
      else
        var target := Resolve(UploadDir, name);
        if !copyOk then Reply(st, Failure(CouldNotStore(name)))
        else
          var disk := st.disk[Where(p.cwd, target) := f.bytes];
          match Save(st.store, FileOnlyRecord(name, f.contentType, target))
          case Success(saved) => Reply(State(saved.store, disk), Success(saved.doc))
          case Failure(e) => Reply(State(st.store, disk), Failure(e))
  }

  /** The ".." check is a substring check, not a path-segment check: a name such
      as "my..notes.txt" is refused although it names a plain file. */
  lemma StoreFileRefusesDotsAnywhere(st: State, bytes: seq<byte>, copyOk: bool, p: Platform)
    requires p.cleanPath("my..notes.txt") == "my..notes.txt"
    ensures StoreFile(st, MultipartFile(Some("my..notes.txt"), None, bytes), copyOk, p)
            == Reply(st, Failure(InvalidPathSequence("my..notes.txt")))
  {
    assert StartsWith("my..notes.txt"[2..], "..");
  }

  /** The ".." check does not stop an absolute name: resolving it against
      "uploads" yields the name itself, so the copy goes to the file the
      name spells out, whatever the working directory, and lands under the
      upload directory only when the name spells out that directory.
      Doubled separators ("//etc/passwd") name the same file. */
  lemma StoreFileWritesAbsoluteName(st: State, name: string, bytes: seq<byte>, p: Platform)
    requires Absolute(name) && p.cleanPath(name) == name && !Contains(name, "..")
    ensures var r := StoreFile(st, MultipartFile(Some(name), None, bytes), true, p);
            var n := Locate(name).names;
            && n in r.state.disk && r.state.disk[n] == bytes
            && (UnderUploadDir(p.cwd, Resolve(UploadDir, name)) <==>
                  |n| >= |p.cwd| + 2 && n[..|p.cwd| + 1] == p.cwd + [UploadDir])
  {
    LocateNormalize(name);
  }

  /** Two uploads under the same cleaned name go to the same file, so the
      second replaces the bytes of the first. */
  lemma StoreFileOverwrites(st: State, f: MultipartFile, g: MultipartFile, p: Platform)
    requires f.originalFilename.Some? && g.originalFilename.Some?
    requires p.cleanPath(f.originalFilename.value) == p.cleanPath(g.originalFilename.value)
    requires !Contains(p.cleanPath(f.originalFilename.value), "..")
    ensures var first := StoreFile(st, f, true, p);
            var second := StoreFile(first.state, g, true, p);
            var spot := Where(p.cwd, Resolve(UploadDir, p.cleanPath(f.originalFilename.value)));
            first.state.disk[spot] == f.bytes && second.state.disk[spot] == g.bytes
            && second.state.store == st.store
  {
  }

  /** `storeFiles`: the shared loop with placeholder content for every file.
      A null array makes the `for` loop throw; unlike `uploadFiles` there is
      no check for an empty array. */
  function StoreFiles(st: State, files: Option<seq<MultipartFile>>, ios: seq<Io>, p: Platform): (r: BatchOutcome)
    requires files.Some? ==> |ios| == |files.value|
    ensures files.None? ==> r == BatchOutcome(st, [], Some(NullReference))
    ensures files.Some? && Valid(st.store) ==> Valid(r.state.store)
    ensures files.Some? && r.failure.None? ==> |r.saved| == |files.value|
  {
    if files.None? then BatchOutcome(st, [], Some(NullReference))
    else Batch(AlwaysPlaceholder, st, p, files.value, ios)
  }

  /** An empty array is accepted and answers an empty list, with nothing
      written or saved. */
  lemma StoreFilesEmpty(st: State, p: Platform)
    ensures StoreFiles(st, Some([]), [], p) == BatchOutcome(st, [], None)
  {
  }

  /** Each record `storeFiles` saves carries the token-prefixed stored name
      as title and filename, the declared type, the target path, the
      placeholder content whatever the type, the default owner, and the id
      `nextId + j`. */
  lemma StoreFilesRecords(st: State, files: seq<MultipartFile>, ios: seq<Io>, p: Platform)
    requires |ios| == |files|
    ensures var r := StoreFiles(st, Some(files), ios, p);
            forall j {:trigger r.saved[j]} :: 0 <= j < |r.saved| ==>
              && j < |files|
              && r.saved[j].id == Some(st.store.nextId + j)
              && r.saved[j].filename == Some(p.cleanPath(ios[j].token + "_" + Show(files[j].originalFilename)))
              && r.saved[j].title == r.saved[j].filename
              && r.saved[j].filetype == files[j].contentType
              && r.saved[j].fileUrl == Some(Resolve(UploadDir, r.saved[j].filename.value))
              && r.saved[j].content == Some(PlaceholderPrefix + ios[j].now)
              && r.saved[j].user == Some(User(DefaultUserId))
  {
    BatchRecords(AlwaysPlaceholder, st, p, files, ios);
  }

  /** `storeFiles` stops at the first file whose copy fails, naming it; every
      file before it is saved, and the saved records stay in the table. */
  lemma StoreFilesFailFast(st: State, files: seq<MultipartFile>, ios: seq<Io>, p: Platform)
    requires |ios| == |files| && Valid(st.store)
    ensures var r := StoreFiles(st, Some(files), ios, p);
            var k := |r.saved|;
            && (forall j :: 0 <= j < k ==> ios[j].copyOk)
            && (r.failure.None? <==> k == |files|)
            && (r.failure.Some? ==>
                  k < |files| && !ios[k].copyOk
                  && r.failure.value == FailedToStore(p.cleanPath(ios[k].token + "_" + Show(files[k].originalFilename))))
            && (forall j :: 0 <= j < k ==> Stored(r.state.store, r.saved[j]))
  {
    BatchAnswer(AlwaysPlaceholder, st, p, files, ios);
    BatchTable(AlwaysPlaceholder, st, p, files, ios);
  }
}

=== FILE: errors.dfy ===
/** Every exception the document code can end a request with. */
module Errors {
  import opened Wrappers

  datatype Error =
    | NoFilesProvided                 // IllegalArgumentException thrown by uploadFiles
    | FailedToStore(fileName: string) // RuntimeException wrapping an IOException in the batch uploads
    | InvalidPathSequence(name: string) // RuntimeException thrown by storeFile for ".."
    | CouldNotStore(name: string)     // RuntimeException wrapping an IOException in storeFile
    | NullReference                   // NullPointerException on a null array or null file name
    | MissingRequired                 // persistence rejects a null non-nullable column
    | NoSuchEntity                    // deleteById on an unknown id, where the store reports it

  /** `getMessage()` of the exceptions this code raises itself, with the
      text it writes; `None` for the exceptions raised by the Java runtime or
      the persistence engine, whose text comes from that library. */
  function WrittenMessage(e: Error): Option<string>
  {
    match e
    case NoFilesProvided => Some("No files provided!")
    case FailedToStore(n) => Some("Failed to store file " + n)
    case InvalidPathSequence(n) => Some("Invalid file path sequence " + n)
    case CouldNotStore(n) => Some("Could not store file " + n + ". Please try again!")
    case NullReference => None
    case MissingRequired => None
    case NoSuchEntity => None
  }
}

=== FILE: file_storage.dfy ===
/** The upload directory, the disk it lives on, and the effects the document
    code receives from its environment (random token, clock, byte decoding,
    path cleaning and the outcome of each I/O call). */
module FileStorage {
  import opened JavaText

  newtype byte = x: int | 0 <= x < 256

  /** The relative directory every upload is written under. */
  const UploadDir: string := "uploads"

  /** The pieces after putting character `c` in front of text with pieces
      `r`: a separator opens an empty piece, any other character joins the
      first piece. */
  function Push(c: char, r: seq<string>): (q: seq<string>)
    requires |r| >= 1
    ensures |q| >= 1
  {
    if c == '/' then [""] + r else [[c] + r[0]] + r[1..]
  }

  /** The pieces of a path between its '/' separators, empty pieces
      included: "/a//b/" has the pieces "", "a", "", "b", "". */
  function Split(p: string): (r: seq<string>)
    ensures |r| >= 1
    decreases |p|
  {
    if |p| == 0 then [""] else Push(p[0], Split(p[1..]))
  }

  /** No piece holds a separator. */
  lemma {:induction false} SplitPiecesNoSlash(p: string)
    ensures forall i :: 0 <= i < |Split(p)| ==> '/' !in Split(p)[i]
    decreases |p|
  {
    if |p| > 0 {
      SplitPiecesNoSlash(p[1..]);
      var rest := Split(p[1..]);
      if p[0] != '/' {
        forall i | 0 <= i < |Split(p)|
          ensures '/' !in Split(p)[i]
        {
          if i == 0 {
            assert '/' !in rest[0];
            assert forall x :: x in [p[0]] + rest[0] ==> x == p[0] || x in rest[0];
          } else {
            assert Split(p)[i] == rest[i];
          }
        }
      }
    }
  }

  /** Putting a character in front of a list of pieces that is extended at
      the back changes only the front. */
  lemma PushAppend(c: char, r: seq<string>, tail: seq<string>)
    requires |r| >= 1
    ensures Push(c, r + tail) == Push(c, r) + tail
  {
    if c != '/' {
      assert (r + tail)[0] == r[0];
      assert (r + tail)[1..] == r[1..] + tail;
    }
  }

  /** A separator splits a path into the pieces before and after it. */
  lemma {:induction false} SplitAround(a: string, b: string)
    ensures Split(a + "/" + b) == Split(a) + Split(b)
    decreases |a|
  {
    var s := a + "/" + b;
    if |a| == 0 {
      assert s[0] == '/' && s[1..] == b;
    } else {
      var tail := a[1..];
      assert s[0] == a[0] && s[1..] == tail + "/" + b;
      SplitAround(tail, b);
      PushAppend(a[0], Split(tail), Split(b));
    }
  }

  /** A string without a separator is a single piece. */
  lemma {:induction false} SplitNoSlash(s: string)
    requires '/' !in s
    ensures Split(s) == [s]
    decreases |s|
  {
    if |s| > 0 {
      assert s[0] in s;
      assert forall c :: c in s[1..] ==> c in s;
      SplitNoSlash(s[1..]);
      assert [s[0]] + s[1..] == s;
    }
  }

  /** The pieces written back with one separator between neighbours. */
  function Join(xs: seq<string>): string
    decreases |xs|
  {
    if |xs| == 0 then ""
    else if |xs| == 1 then xs[0]
    else xs[0] + "/" + Join(xs[1..])
  }

  /** Joining separator-free pieces and splitting again gives them back. */
  lemma {:induction false} SplitJoin(xs: seq<string>)
    requires |xs| >= 1 && forall i :: 0 <= i < |xs| ==> '/' !in xs[i]
    ensures Split(Join(xs)) == xs
    decreases |xs|
  {
    SplitNoSlash(xs[0]);
    if |xs| > 1 {
      SplitAround(xs[0], Join(xs[1..]));
      SplitJoin(xs[1..]);
      assert xs == [xs[0]] + xs[1..];
    }
  }

  /** The non-empty pieces, in order. */
  function NonEmpty(xs: seq<string>): (r: seq<string>)
    ensures forall x :: x in r <==> x in xs && x != ""
    ensures forall i :: 0 <= i < |r| ==> r[i] != ""
    ensures (forall i :: 0 <= i < |xs| ==> '/' !in xs[i]) ==> forall i :: 0 <= i < |r| ==> '/' !in r[i]
    decreases |xs|
  {
    if |xs| == 0 then []
    else if xs[0] == "" then NonEmpty(xs[1..])
    else [xs[0]] + NonEmpty(xs[1..])
  }

  /** Dropping empty pieces from a list that has none changes nothing. */
  lemma {:induction false} NonEmptyOfNonEmpty(xs: seq<string>)
    requires forall i :: 0 <= i < |xs| ==> xs[i] != ""
    ensures NonEmpty(xs) == xs
    decreases |xs|
  {
    if |xs| > 0 {
      NonEmptyOfNonEmpty(xs[1..]);
      assert xs == [xs[0]] + xs[1..];
    }
  }

  predicate Absolute(p: string)
  {
    |p| > 0 && p[0] == '/'
  }

  /** `UnixPath` normalisation of path text, done when a path is created:
      runs of separators collapse to one and trailing separators go, so only
      the leading "/" of an absolute path and its names remain. */
  function Normalize(p: string): string
  {
    (if Absolute(p) then "/" else "") + Join(NonEmpty(Split(p)))
  }

  /** Path text with no doubled and no trailing separator: the only empty
      piece is the one before the leading "/" of an absolute path. */
  predicate Clean(p: string)
  {
    || p == ""
    || p == "/"
    || forall i :: 0 <= i < |Split(p)| ==> (Split(p)[i] == "" <==> i == 0 && Absolute(p))
  }

  /** Separator-free, non-empty names written out with separators: the
      text splits back into them, does not start with a separator, and
      behind a leading "/" gains one empty piece in front. */
  lemma {:induction false} JoinShape(ns: seq<string>)
    requires |ns| >= 1
    requires forall i :: 0 <= i < |ns| ==> ns[i] != "" && '/' !in ns[i]
    ensures Split(Join(ns)) == ns
    ensures Join(ns) != "" && Join(ns)[0] == ns[0][0]
    ensures Split("/" + Join(ns)) == [""] + ns
  {
    SplitJoin(ns);
    if |ns| > 1 {
      assert Join(ns) == ns[0] + ("/" + Join(ns[1..]));
    }
    SplitAround("", Join(ns));
    assert "" + "/" + Join(ns) == "/" + Join(ns);
  }

  /** The pieces of normalised text: the names, behind one empty piece when
      the path is absolute. */
  lemma NormalizedPieces(p: string)
    ensures var ns := NonEmpty(Split(p));
            && (Absolute(Normalize(p)) <==> Absolute(p))
            && (|ns| == 0 ==> Normalize(p) == if Absolute(p) then "/" else "")
            && (|ns| > 0 ==> Split(Normalize(p)) == (if Absolute(p) then [""] else []) + ns)
  {
    var ns := NonEmpty(Split(p));
    SplitPiecesNoSlash(p);
    if |ns| > 0 {
      JoinShape(ns);
      assert ns[0] in ns;
      assert ns[0][0] != '/' by {
        assert ns[0][0] in ns[0];
      }
      if !Absolute(p) {
        assert Normalize(p) == Join(ns);
      }
    }
  }

  /** Normalised absolute text: one empty piece, then the names. */
  lemma NormalizedAbsolute(p: string)
    requires Absolute(p) && |NonEmpty(Split(p))| > 0
    ensures Clean(Normalize(p))
    ensures NonEmpty(Split(Normalize(p))) == NonEmpty(Split(p))
  {
    var ns := NonEmpty(Split(p));
    var r := Normalize(p);
    NormalizedPieces(p);
    var pieces := Split(r);
    assert pieces == [""] + ns;
    forall i | 0 <= i < |pieces|
      ensures pieces[i] == "" <==> i == 0 && Absolute(r)
    {
      if i > 0 {
        assert pieces[i] == ns[i - 1];
      }
    }
    NonEmptyOfNonEmpty(ns);
    assert pieces[1..] == ns;
  }

  /** Normalised relative text: just the names. */
  lemma NormalizedRelative(p: string)
    requires !Absolute(p) && |NonEmpty(Split(p))| > 0
    ensures Clean(Normalize(p))
    ensures NonEmpty(Split(Normalize(p))) == NonEmpty(Split(p))
  {
    var ns := NonEmpty(Split(p));
    NormalizedPieces(p);
    assert Split(Normalize(p)) == ns;
    NonEmptyOfNonEmpty(ns);
  }

  /** Normalised text is clean, stays absolute or relative, and names the
      same pieces. */
  lemma NormalizeProperties(p: string)
    ensures Clean(Normalize(p))
    ensures Absolute(Normalize(p)) <==> Absolute(p)
    ensures NonEmpty(Split(Normalize(p))) == NonEmpty(Split(p))
  {
    var ns := NonEmpty(Split(p));
    NormalizedPieces(p);
    if |ns| == 0 {
      if Absolute(p) {
        assert Normalize(p) == "/" && Split("/") == ["", ""];
        assert NonEmpty(["", ""]) == [] by {
          assert ["", ""][1..] == [""];
        }
      } else {
        assert Normalize(p) == "" && Split("") == [""];
      }
    } else if Absolute(p) {
      NormalizedAbsolute(p);
    } else {
      NormalizedRelative(p);
    }
  }

  /** Normalising twice is normalising once. */
  lemma NormalizeIdempotent(p: string)
    ensures Normalize(Normalize(p)) == Normalize(p)
  {
    NormalizeProperties(p);
  }

  /** Writing the pieces back with separators gives the text again. */
  lemma {:induction false} JoinSplit(p: string)
    ensures Join(Split(p)) == p
    decreases |p|
  {
    if |p| > 0 {
      var rest := Split(p[1..]);
      JoinSplit(p[1..]);
      if p[0] == '/' {
        assert Split(p) == [""] + rest && ([""] + rest)[1..] == rest;
        assert p == "" + "/" + p[1..];
      } else if |rest| == 1 {
        assert Split(p) == [[p[0]] + rest[0]];
        assert p == [p[0]] + p[1..];
      } else {
        var pieces := Split(p);
        assert pieces == [[p[0]] + rest[0]] + rest[1..];
        assert pieces[1..] == rest[1..];
        assert Join(rest) == rest[0] + "/" + Join(rest[1..]);
        assert Join(pieces) == [p[0]] + rest[0] + "/" + Join(rest[1..]);
        assert p == [p[0]] + p[1..];
      }
    }
  }

  /** Clean text is already normal. */
  lemma CleanIsNormal(p: string)
    requires Clean(p)
    ensures Normalize(p) == p
  {
    var pieces := Split(p);
    JoinSplit(p);
    if p == "/" {
      SplitAround("", "");
      assert "" + "/" + "" == "/";
      assert NonEmpty(["", ""]) == [] by {
        assert ["", ""][1..] == [""];
      }
    } else if p != "" {
      if Absolute(p) {
        var names := pieces[1..];
        assert pieces == [""] + names && |names| >= 1 by {
          assert pieces == [""] + Split(p[1..]);
        }
        forall i | 0 <= i < |names|
          ensures names[i] != ""
        {
          assert names[i] == pieces[i + 1];
        }
        NonEmptyOfNonEmpty(names);
        assert NonEmpty(pieces) == names;
        assert Join(pieces) == "" + "/" + Join(names);
      } else {
        NonEmptyOfNonEmpty(pieces);
      }
    }
  }

  /** Where a path points once "." and ".." are resolved, lexically as
      `Path.normalize` does: absolute or relative to the working directory,
      and the names to follow from there. */
  datatype Location = Location(absolute: bool, names: seq<string>)

  /** Following one piece: an empty piece or "." stays; ".." leaves the last
      name, or stays at the root of an absolute path, or is kept when a
      relative path has no name left to leave; a name is entered. */
  function Step(names: seq<string>, piece: string, absolute: bool): seq<string>
  {
    if piece == "" || piece == "." then names
    else if piece == ".." then
      if |names| > 0 && names[|names| - 1] != ".." then names[..|names| - 1]
      else if absolute then names
      else names + [".."]
    else names + [piece]
  }

  /** Following the pieces in order, starting at `names`. */
  function Climb(names: seq<string>, pieces: seq<string>, absolute: bool): seq<string>
    decreases |pieces|
  {
    if |pieces| == 0 then names
    else Climb(Step(names, pieces[0], absolute), pieces[1..], absolute)
  }

  function Locate(p: string): Location
  {
    Location(Absolute(p), Climb([], Split(p), Absolute(p)))
  }

  /** Empty pieces do not move. */
  lemma {:induction false} ClimbSkipsEmpty(names: seq<string>, pieces: seq<string>, absolute: bool)
    ensures Climb(names, NonEmpty(pieces), absolute) == Climb(names, pieces, absolute)
    decreases |pieces|
  {
    if |pieces| > 0 {
      ClimbSkipsEmpty(Step(names, pieces[0], absolute), pieces[1..], absolute);
      ClimbSkipsEmpty(names, pieces[1..], absolute);
      if pieces[0] != "" {
        assert ([pieces[0]] + NonEmpty(pieces[1..]))[1..] == NonEmpty(pieces[1..]);
      }
    }
  }

  /** Normalising path text does not change the file it names. */
  lemma LocateNormalize(p: string)
    ensures Locate(Normalize(p)) == Locate(p)
  {
    NormalizeProperties(p);
    ClimbSkipsEmpty([], Split(p), Absolute(p));
    ClimbSkipsEmpty([], Split(Normalize(p)), Absolute(p));
  }

  /** The pieces that name something: neither empty nor ".". */
  function Plain(pieces: seq<string>): (r: seq<string>)
    ensures forall x :: x in r <==> x in pieces && x != "" && x != "."
    decreases |pieces|
  {
    if |pieces| == 0 then []
    else if pieces[0] == "" || pieces[0] == "." then Plain(pieces[1..])
    else [pieces[0]] + Plain(pieces[1..])
  }

  /** Without "..", following pieces just enters every name in turn. */
  lemma {:induction false} ClimbPlain(names: seq<string>, pieces: seq<string>, absolute: bool)
    requires ".." !in pieces
    ensures Climb(names, pieces, absolute) == names + Plain(pieces)
    decreases |pieces|
  {
    if |pieces| > 0 {
      assert pieces[0] in pieces;
      assert forall x :: x in pieces[1..] ==> x in pieces;
      ClimbPlain(Step(names, pieces[0], absolute), pieces[1..], absolute);
    }
  }

  /** A single directory name: no separator, not empty, not "." or "..". */
  predicate SingleName(dir: string)
  {
    dir != "" && dir != "." && dir != ".." && '/' !in dir
  }

  /** A relative, non-empty path starts with a name, not an empty piece. */
  lemma RelativeStartsWithName(other: string)
    requires !Absolute(other) && other != ""
    ensures Split(other)[0] != ""
  {
    var rest := Split(other[1..]);
    assert Split(other) == [[other[0]] + rest[0]] + rest[1..];
  }

  /** A single directory name is entered by the first step. */
  lemma EnterDir(dir: string, ns: seq<string>)
    requires SingleName(dir)
    ensures Climb([], [dir] + ns, false) == Climb([dir], ns, false)
  {
    assert ([dir] + ns)[0] == dir && ([dir] + ns)[1..] == ns;
    assert Step([], dir, false) == [dir];
  }

  /** The pieces of a directory name, a separator, and normalised relative
      text. */
  lemma AppendedPieces(dir: string, other: string)
    requires !Absolute(other) && other != "" && SingleName(dir)
    ensures var p := dir + "/" + Normalize(other);
            && Normalize(other) != ""
            && !Absolute(p)
            && Split(p) == [dir] + NonEmpty(Split(other))
  {
    var ns := NonEmpty(Split(other));
    var o := Normalize(other);
    RelativeStartsWithName(other);
    assert Split(other)[0] in ns;
    NormalizedPieces(other);
    SplitAround(dir, o);
    SplitNoSlash(dir);
    assert (dir + "/" + o)[0] == dir[0] && dir[0] in dir;
  }

  /** Appending a relative name to a directory name. */
  lemma AppendRelative(dir: string, other: string)
    requires !Absolute(other) && other != ""
    ensures Normalize(other) != ""
    ensures SingleName(dir) ==>
              && Clean(dir + "/" + Normalize(other))
              && Locate(dir + "/" + Normalize(other)) == Location(false, Climb([dir], Split(other), false))
  {
    RelativeStartsWithName(other);
    assert Split(other)[0] in NonEmpty(Split(other));
    NormalizedPieces(other);
    if SingleName(dir) {
      var ns := NonEmpty(Split(other));
      var p := dir + "/" + Normalize(other);
      AppendedPieces(dir, other);
      var pieces := Split(p);
      forall i | 0 <= i < |pieces|
        ensures pieces[i] != ""
      {
        if i > 0 {
          assert pieces[i] == ns[i - 1];
        }
      }
      assert Clean(p);
      EnterDir(dir, ns);
      ClimbSkipsEmpty([dir], Split(other), false);
    }
  }

  /** A directory name on its own. */
  lemma DirAlone(dir: string)
    ensures SingleName(dir) ==> Clean(dir) && Locate(dir) == Location(false, Climb([dir], Split(""), false))
  {
    if SingleName(dir) {
      SplitNoSlash(dir);
      assert dir[0] in dir;
      assert Split("") == [""];
      EnterDir(dir, []);
      assert [dir] + [] == [dir];
      assert Climb([dir], [""], false) == Climb([dir], [], false) by {
        assert [""][1..] == [];
      }
    }
  }

  /** `Paths.get(dir).resolve(other).toString()` on a POSIX file system.
      `other` is normalised first; an absolute `other` replaces `dir`, an
      empty one leaves `dir`, and any other is appended after a separator.
      Against a single directory name the result is clean text naming the
      place reached by entering `dir` and following `other`'s pieces. */
  function Resolve(dir: string, other: string): (p: string)
    ensures Absolute(other) ==> p == Normalize(other)
    ensures !Absolute(other) && other != "" ==> p == dir + "/" + Normalize(other)
    ensures other == "" ==> p == dir
    ensures SingleName(dir) ==> Clean(p)
    ensures SingleName(dir) ==>
              Locate(p) == if Absolute(other) then Locate(other) else Location(false, Climb([dir], Split(other), false))
  {
    var o := Normalize(other);
    NormalizeProperties(other);
    LocateNormalize(other);
    if Absolute(other) then o
    else if other == "" then
      DirAlone(dir);
      dir
    else
      AppendRelative(dir, other);
      dir + "/" + o
  }

  /** A file, by the names that lead to it from the root. */
  type Place = seq<string>

  /** The file a path names for a process whose working directory is `cwd`:
      an absolute location is already one; a relative one is followed from
      `cwd`, where ".." above the root stays at the root. */
  function Where(cwd: Place, path: string): Place
  {
    var l := Locate(path);
    if l.absolute then l.names else Climb(cwd, l.names, true)
  }

  /** A file strictly inside the upload directory of a process working in
      `cwd`, after "." and ".." are resolved. */
  predicate UnderUploadDir(cwd: Place, path: string)
  {
    var w := Where(cwd, path);
    |w| >= |cwd| + 2 && w[..|cwd| + 1] == cwd + [UploadDir]
  }

  /** The file system as seen by the document code: each file to its bytes.
      Every spelling of a file ("uploads/../x", "x", and "/w/x" when the
      working directory is "/w") addresses the same bytes. */
  type Disk = map<Place, seq<byte>>

  /** The library behaviours the code calls but this model does not reproduce:
      `StringUtils.cleanPath`, `new String(bytes)` with the platform's
      default charset, and the working directory relative paths start
      from. */
  datatype Platform = Platform(cleanPath: string -> string, decode: seq<byte> -> string, cwd: Place)

  /** What the environment supplies while one uploaded file is handled: the
      random UUID text, the `LocalDateTime.now()` text, whether `Files.copy`
      completes, and whether `MultipartFile.getBytes` completes. */
  datatype Io = Io(token: string, now: string, copyOk: bool, readOk: bool)

  /** Entering names that are all single names. */
  predicate Names(ns: seq<string>)
  {
    forall i :: 0 <= i < |ns| ==> SingleName(ns[i])
  }

  /** Single names are all plain, and none is "..". */
  lemma {:induction false} PlainNames(ns: seq<string>)
    requires Names(ns)
    ensures ".." !in ns && Plain(ns) == ns
    decreases |ns|
  {
    if |ns| > 0 {
      assert SingleName(ns[0]);
      assert Names(ns[1..]) by {
        forall i | 0 <= i < |ns| - 1
          ensures SingleName(ns[1..][i])
        {
          assert ns[1..][i] == ns[i + 1];
        }
      }
      PlainNames(ns[1..]);
      assert ns == [ns[0]] + ns[1..];
    }
  }

  /** A relative name with no ".." piece and at least one real name lands
      inside the upload directory, whatever the working directory. */
  lemma RelativeNameStaysUnder(cwd: Place, name: string)
    requires !Absolute(name) && name != ""
    requires ".." !in Split(name) && Plain(Split(name)) != []
    ensures UnderUploadDir(cwd, Resolve(UploadDir, name))
  {
    assert SingleName(UploadDir);
    var rest := Plain(Split(name));
    ClimbPlain([UploadDir], Split(name), false);
    var names := [UploadDir] + rest;
    assert names[0] == UploadDir && names[1..] == rest;
    assert rest[0] in rest;
    ClimbPlain(cwd, names, true);
    var w := cwd + Plain(names);
    assert Plain(names) == [UploadDir] + Plain(rest);
    assert rest[0] in Plain(rest);
    assert w[..|cwd| + 1] == cwd + [UploadDir];
  }

  /** Following a list of pieces is following its first, then the rest. */
  lemma ClimbCons(names: seq<string>, piece: string, rest: seq<string>, absolute: bool)
    ensures Climb(names, [piece] + rest, absolute) == Climb(Step(names, piece, absolute), rest, absolute)
  {
    assert ([piece] + rest)[0] == piece && ([piece] + rest)[1..] == rest;
  }

  /** The pieces of "../x". */
  lemma UpPieces(x: string)
    requires SingleName(x)
    ensures Split("../" + x) == ["..", x]
    ensures Clean("../" + x)
  {
    assert "../" + x == ".." + "/" + x;
    SplitAround("..", x);
    SplitNoSlash("..");
    SplitNoSlash(x);
    assert ("../" + x)[0] == '.';
  }

  /** A name starting with ".." climbs out: "uploads/../x" is the file "x"
      in the working directory, not a file under "uploads". */
  lemma UpSegmentEscapes(cwd: Place, x: string)
    requires SingleName(x)
    ensures Resolve(UploadDir, "../" + x) == UploadDir + "/../" + x
    ensures Locate(Resolve(UploadDir, "../" + x)) == Location(false, [x])
    ensures Where(cwd, Resolve(UploadDir, "../" + x)) == cwd + [x]
    ensures !UnderUploadDir(cwd, Resolve(UploadDir, "../" + x))
  {
    assert SingleName(UploadDir);
    UpPieces(x);
    CleanIsNormal("../" + x);
    ClimbCons([UploadDir], "..", [x], false);
    assert Step([UploadDir], "..", false) == [];
    ClimbCons([], x, [], false);
    assert Step([], x, false) == [x];
    assert [x] + [] == [x];
    ClimbCons(cwd, x, [], true);
  }

  /** An absolute clean name is not resolved against "uploads": `resolve`
      returns the name itself, the working directory plays no part, and the
      file is under the upload directory exactly when the name spells out
      the working directory, then "uploads", then at least one more name. */
  lemma AbsoluteNameEscapes(cwd: Place, name: string)
    requires Absolute(name) && Clean(name)
    ensures Resolve(UploadDir, name) == name
    ensures Where(cwd, name) == Locate(name).names
    ensures var n := Locate(name).names;
            UnderUploadDir(cwd, name) <==> |n| >= |cwd| + 2 && n[..|cwd| + 1] == cwd + [UploadDir]
    ensures var n := Locate(name).names;
            |n| > 0 && n[0] != UploadDir && (cwd == [] || cwd[0] != n[0]) ==> !UnderUploadDir(cwd, name)
  {
    CleanIsNormal(name);
    var n := Locate(name).names;
    if |n| >= |cwd| + 2 && n[..|cwd| + 1] == cwd + [UploadDir] {
      if cwd == [] {
        assert n[0] == n[..1][0];
      } else {
        assert n[0] == n[..|cwd| + 1][0];
      }
    }
  }

  /** Single names written out behind a "/": clean absolute text whose
      location is those names. */
  lemma SpelledOut(ns: seq<string>)
    requires |ns| >= 1 && Names(ns)
    ensures Clean("/" + Join(ns))
    ensures Locate("/" + Join(ns)) == Location(true, ns)
  {
    PlainNames(ns);
    JoinShape(ns);
    var spelled := "/" + Join(ns);
    var pieces := Split(spelled);
    assert pieces == [""] + ns;
    forall i | 0 <= i < |pieces|
      ensures pieces[i] == "" <==> i == 0 && Absolute(spelled)
    {
      if i > 0 {
        assert pieces[i] == ns[i - 1];
      }
    }
    ClimbCons([], "", ns, true);
    ClimbPlain([], ns, true);
  }

  /** A single name resolved against "uploads" is the file "x" in the
      upload directory of the working directory. */
  lemma BareNameFile(cwd: Place, x: string)
    requires Names(cwd) && SingleName(x)
    ensures Where(cwd, Resolve(UploadDir, x)) == cwd + [UploadDir, x]
  {
    SplitNoSlash(x);
    assert x[0] in x;
    assert SingleName(UploadDir);
    ClimbCons([UploadDir], x, [], false);
    assert Names([UploadDir, x]);
    PlainNames([UploadDir, x]);
    ClimbPlain(cwd, [UploadDir, x], true);
  }

  /** Two spellings of one upload: the bare name "x" resolved against
      "uploads", and the absolute text spelling out the working directory,
      "uploads" and "x", name the same file. */
  lemma SameFileTwoSpellings(cwd: Place, x: string)
    requires Names(cwd) && SingleName(x)
    ensures var spelled := "/" + Join(cwd + [UploadDir, x]);
            && Resolve(UploadDir, spelled) == spelled
            && Where(cwd, Resolve(UploadDir, spelled)) == cwd + [UploadDir, x]
            && Where(cwd, Resolve(UploadDir, x)) == cwd + [UploadDir, x]
  {
    var ns := cwd + [UploadDir, x];
    assert Names(ns) by {
      assert SingleName(UploadDir);
      forall i | 0 <= i < |ns|
        ensures SingleName(ns[i])
      {
        if i < |cwd| {
          assert ns[i] == cwd[i];
        }
      }
    }
    SpelledOut(ns);
    CleanIsNormal("/" + Join(ns));
    BareNameFile(cwd, x);
  }

  /** Dropping empty pieces, one piece at a time. */
  lemma NonEmptyCons(piece: string, rest: seq<string>)
    ensures NonEmpty([piece] + rest) == if piece == "" then NonEmpty(rest) else [piece] + NonEmpty(rest)
  {
    assert ([piece] + rest)[0] == piece && ([piece] + rest)[1..] == rest;
  }

  /** The pieces of "x//y/". */
  lemma CollapsedPieces(x: string, y: string)
    requires SingleName(x) && SingleName(y)
    ensures Split(x + "//" + y + "/") == [x] + ([""] + ([y] + [""]))
    ensures !Absolute(x + "//" + y + "/")
  {
    var other := x + "//" + y + "/";
    assert other == x + "/" + ("" + "/" + (y + "/" + ""));
    SplitAround(x, "" + "/" + (y + "/" + ""));
    SplitAround("", y + "/" + "");
    SplitAround(y, "");
    SplitNoSlash(x);
    SplitNoSlash(y);
    assert other[0] == x[0] && x[0] in x;
  }

  /** Normalising "x//y/" gives "x/y". */
  lemma CollapsedNormal(x: string, y: string)
    requires SingleName(x) && SingleName(y)
    ensures Normalize(x + "//" + y + "/") == x + "/" + y
  {
    CollapsedPieces(x, y);
    NonEmptyCons("", []);
    NonEmptyCons(y, [""]);
    NonEmptyCons("", [y] + [""]);
    NonEmptyCons(x, [""] + ([y] + [""]));
    assert NonEmpty(Split(x + "//" + y + "/")) == [x, y];
    assert Join([x, y]) == x + "/" + y by {
      assert [x, y][1..] == [y];
    }
  }

  /** Doubled and trailing separators in a name are dropped from the path:
      "a//b/" is stored as "uploads/a/b". */
  lemma ResolveCollapsesSeparators(x: string, y: string)
    requires SingleName(x) && SingleName(y)
    ensures Resolve(UploadDir, x + "//" + y + "/") == UploadDir + "/" + x + "/" + y
  {
    CollapsedPieces(x, y);
    CollapsedNormal(x, y);
    assert x + "//" + y + "/" != "";
  }
}

=== FILE: ingestion.dfy ===
/** The per-file loop shared by the controller's `uploadFiles` and the
    service's `storeFiles`: name the file `<token>_<original>`, copy it into
    the upload directory, build the record, save it; the first I/O failure
    ends the whole call and nothing done before it is undone. The two
    callers differ only in how they fill `content`. */
module Ingestion {
  import opened Wrappers
  import opened JavaText
  import opened Errors
  import opened FileStorage
  import opened DocumentModel
  import opened DocumentRepository

  /** One part of a multipart request: the client's file name and declared
      MIME type (either may be null) and the bytes sent. */
  datatype MultipartFile = MultipartFile(originalFilename: Option<string>, contentType: Option<string>, bytes: seq<byte>)

  /** Everything a request can change: the table and the disk. */
  datatype State = State(store: Store, disk: Disk)

  /** How a caller fills `content`: the controller decodes text uploads, the
      service writes the placeholder for every upload. */
  datatype ContentRule = DecodeText | AlwaysPlaceholder

  const PlaceholderPrefix: string := "File uploaded on "

  /** The declared type is present and starts with "text", case-sensitively. */
  predicate IsText(contentType: Option<string>)
  {
    contentType.Some? && StartsWith(contentType.value, "text")
  }

  /** `cleanPath(token + "_" + originalFilename)`; a null name is spelt "null". */
  function StoredName(p: Platform, f: MultipartFile, io: Io): string
  {
    p.cleanPath(io.token + "_" + Show(f.originalFilename))
  }

  /** Where the bytes are copied: the stored name resolved against "uploads".
      This text is also what the record keeps as `fileUrl`. */
  function Target(p: Platform, f: MultipartFile, io: Io): string
  {
    Resolve(UploadDir, StoredName(p, f, io))
  }

  /** The file the copy writes: the one the target path names from the
      working directory. */
  function Spot(p: Platform, f: MultipartFile, io: Io): Place
  {
    Where(p.cwd, Target(p, f, io))
  }

  function Content(rule: ContentRule, p: Platform, f: MultipartFile, io: Io): string
  {
    if rule == DecodeText && IsText(f.contentType) then p.decode(f.bytes)
    else PlaceholderPrefix + io.now
  }

  /** The record built for one upload, before the store gives it an id:
      filename and title are the stored name, filetype the declared type,
      fileUrl the target path, and the owner the default user. */
  function UploadedRecord(rule: ContentRule, p: Platform, f: MultipartFile, io: Io): Document
  {
    var name := StoredName(p, f, io);
    Document(None, Some(name), Some(Content(rule, p, f, io)), Some(name), f.contentType,
             Some(Target(p, f, io)), Some(User(DefaultUserId)))
  }

  /** The record is the one the loop body assembles with the entity's setters,
      starting from the no-argument constructor. */
  lemma UploadedRecordBySetters(rule: ContentRule, p: Platform, f: MultipartFile, io: Io)
    ensures var name := StoredName(p, f, io);
            var d := SetFileUrl(SetFiletype(SetFilename(NewDocument(), Some(name)), f.contentType), Some(Target(p, f, io)));
            UploadedRecord(rule, p, f, io)
              == SetUser(SetTitle(SetContent(d, Some(Content(rule, p, f, io))), Some(name)), Some(User(DefaultUserId)))
  {
  }

  /** One upload throws: the copy fails, or, for a text upload under the
      controller's rule, reading the bytes back after the copy fails. */
  predicate IoFails(rule: ContentRule, f: MultipartFile, io: Io)
  {
    !io.copyOk || (rule == DecodeText && IsText(f.contentType) && !io.readOk)
  }

  /** What the loop body does with one file, worked out from the file and its
      environment: the stored name, the file the copy writes, the bytes, the
      record to save, whether the copy completes and whether the body throws. */
  datatype Plan = Plan(name: string, spot: Place, bytes: seq<byte>, record: Document, copies: bool, throws: bool)

  function PlanFor(rule: ContentRule, p: Platform, f: MultipartFile, io: Io): Plan
  {
    Plan(StoredName(p, f, io), Spot(p, f, io), f.bytes, UploadedRecord(rule, p, f, io), io.copyOk, IoFails(rule, f, io))
  }

  function Plans(rule: ContentRule, p: Platform, files: seq<MultipartFile>, ios: seq<Io>): (ps: seq<Plan>)
    requires |ios| == |files|
    ensures |ps| == |files|
    ensures forall j :: 0 <= j < |files| ==> ps[j] == PlanFor(rule, p, files[j], ios[j])
  {
    seq(|files|, j requires 0 <= j < |files| => PlanFor(rule, p, files[j], ios[j]))
  }

  /** Every planned record is new (no id) and satisfies the table, and a plan
      whose copy fails throws. */
  ghost predicate Feasible(ps: seq<Plan>)
  {
    forall j :: 0 <= j < |ps| ==>
      ps[j].record.id.None? && Persistable(ps[j].record) && (!ps[j].copies ==> ps[j].throws)
  }

  lemma PlansAreFeasible(rule: ContentRule, p: Platform, files: seq<MultipartFile>, ios: seq<Io>)
    requires |ios| == |files|
    ensures Feasible(Plans(rule, p, files, ios))
  {
  }

  datatype Iteration = Ingested(state: State, doc: Document) | Threw(state: State, error: Error)

  /** One iteration of the loop body: copy, then (text uploads under the
      controller's rule) read the bytes back, then save. An I/O failure is
      reported as "Failed to store file <name>"; a failure of `save` itself
      surfaces unwrapped. */
  function IngestOne(st: State, plan: Plan): (r: Iteration)
    ensures Valid(st.store) ==> Valid(r.state.store)
  {
    if !plan.copies then Threw(st, FailedToStore(plan.name))
    else
      var disk := st.disk[plan.spot := plan.bytes];
      if plan.throws then Threw(State(st.store, disk), FailedToStore(plan.name))
      else
        match Save(st.store, plan.record)
        case Success(saved) => Ingested(State(saved.store, disk), saved.doc)
        case Failure(e) => Threw(State(st.store, disk), e)
  }

  /** Where the loop stopped: the state reached, the records saved so far
      (the `savedDocs` list), and the exception that ended it, if any. */
  datatype BatchOutcome = BatchOutcome(state: State, saved: seq<Document>, failure: Option<Error>)

  /** The `for` loop over the planned files from index `i` on, in order,
      stopping at the first throw. */
  function BatchFrom(st: State, ps: seq<Plan>, i: nat): (r: BatchOutcome)
    requires i <= |ps|
    ensures Valid(st.store) ==> Valid(r.state.store)
    ensures |r.saved| <= |ps| - i
    ensures r.failure.None? ==> |r.saved| == |ps| - i
    decreases |ps| - i
  {
    if i == |ps| then BatchOutcome(st, [], None)
    else
      var step := IngestOne(st, ps[i]);
      if step.Threw? then BatchOutcome(step.state, [], Some(step.error))
      else
        var rest := BatchFrom(step.state, ps, i + 1);
        BatchOutcome(rest.state, [step.doc] + rest.saved, rest.failure)
  }

  /** The whole loop: every file of the request, from the first. */
  function Batch(rule: ContentRule, st: State, p: Platform, files: seq<MultipartFile>, ios: seq<Io>): (r: BatchOutcome)
    requires |ios| == |files|
    ensures Valid(st.store) ==> Valid(r.state.store)
    ensures r.failure.None? ==> |r.saved| == |files|
  {
    BatchFrom(st, Plans(rule, p, files, ios), 0)
  }

  /** The index of the first plan at or after `i` that throws, or the number
      of plans when none does. */
  function FirstThrow(ps: seq<Plan>, i: nat): (k: nat)
    requires i <= |ps|
    ensures i <= k <= |ps|
    ensures forall j :: i <= j < k ==> !ps[j].throws
    ensures k < |ps| ==> ps[k].throws
    decreases |ps| - i
  {
    if i == |ps| then i
    else if ps[i].throws then i
    else FirstThrow(ps, i + 1)
  }

  /** What the loop answers: it fails exactly when some file throws, naming
      the first such file, and it has saved one record per file before that
      one (every file when none throws). */
  lemma {:induction false} BatchFromAnswer(st: State, ps: seq<Plan>, i: nat)
    requires Feasible(ps) && i <= |ps|
    ensures var r := BatchFrom(st, ps, i);
            var k := FirstThrow(ps, i);
            && (r.failure.None? <==> k == |ps|)
            && (r.failure.Some? ==> k < |ps| && r.failure.value == FailedToStore(ps[k].name))
            && |r.saved| == k - i
    decreases |ps| - i
  {
    if i < |ps| {
      var step := IngestOne(st, ps[i]);
      if step.Ingested? {
        BatchFromAnswer(step.state, ps, i + 1);
      }
    }
  }

  /** The `j`-th saved record is the `j`-th planned one from `i`, under the
      id `nextId + j`. */
  lemma {:induction false} BatchFromSavedAt(st: State, ps: seq<Plan>, i: nat, j: nat)
    requires Feasible(ps) && i <= |ps| && j < |BatchFrom(st, ps, i).saved|
    ensures i + j < |ps|
    ensures BatchFrom(st, ps, i).saved[j] == ps[i + j].record.(id := Some(st.store.nextId + j))
    decreases j
  {
    var step := IngestOne(st, ps[i]);
    assert step.Ingested?;
    if j > 0 {
      BatchFromSavedAt(step.state, ps, i + 1, j - 1);
      assert i + j == (i + 1) + (j - 1);
    }
  }

  /** The `j`-th record saved by the whole loop is the `j`-th planned one. */
  lemma BatchSavedAt(st: State, ps: seq<Plan>, j: nat)
    requires Feasible(ps) && j < |BatchFrom(st, ps, 0).saved|
    ensures j < |ps|
    ensures BatchFrom(st, ps, 0).saved[j] == ps[j].record.(id := Some(st.store.nextId + j))
  {
    BatchFromSavedAt(st, ps, 0, j);
  }

  /** Which ids the loop adds to the table: one fresh id per saved record,
      consecutive from `nextId`, and no other. */
  lemma {:induction false} BatchFromIds(st: State, ps: seq<Plan>, i: nat)
    requires Feasible(ps) && i <= |ps|
    ensures var r := BatchFrom(st, ps, i);
            var k := FirstThrow(ps, i);
            && r.state.store.nextId == st.store.nextId + (k - i)
            && (forall id :: id in r.state.store.docs <==> id in st.store.docs || st.store.nextId <= id < st.store.nextId + (k - i))
    decreases |ps| - i
  {
    if i < |ps| {
      var step := IngestOne(st, ps[i]);
      if step.Ingested? {
        BatchFromIds(step.state, ps, i + 1);
      }
    }
  }

  /** The loop never changes a row that was in the table before it. */
  lemma {:induction false} BatchFromKeepsRows(st: State, ps: seq<Plan>, i: nat)
    requires Valid(st.store) && Feasible(ps) && i <= |ps|
    ensures var r := BatchFrom(st, ps, i);
            forall id :: id in st.store.docs ==> id in r.state.store.docs && r.state.store.docs[id] == st.store.docs[id]
    decreases |ps| - i
  {
    if i < |ps| {
      var step := IngestOne(st, ps[i]);
      if step.Ingested? {
        assert st.store.nextId !in st.store.docs;
        BatchFromKeepsRows(step.state, ps, i + 1);
      }
    }
  }

  /** Every record the loop saved is in the table when it stops, whether or
      not a later file threw: nothing is rolled back. */
  lemma {:induction false} BatchFromSavedStay(st: State, ps: seq<Plan>, i: nat)
    requires Valid(st.store) && Feasible(ps) && i <= |ps|
    ensures var r := BatchFrom(st, ps, i);
            forall j :: 0 <= j < |r.saved| ==> Stored(r.state.store, r.saved[j])
    decreases |ps| - i
  {
    if i < |ps| {
      var step := IngestOne(st, ps[i]);
      if step.Ingested? {
        BatchFromSavedStay(step.state, ps, i + 1);
        BatchFromKeepsRows(step.state, ps, i + 1);
        var r := BatchFrom(st, ps, i);
        var rest := BatchFrom(step.state, ps, i + 1);
        assert Stored(step.state.store, step.doc);
        forall j | 0 <= j < |r.saved|
          ensures Stored(r.state.store, r.saved[j])
        {
          if j > 0 {
            assert r.saved[j] == rest.saved[j - 1];
          }
        }
      }
    }
  }

  /** How many files reached the disk: those before the first throw, plus
      the throwing one when its copy went through and only the read-back
      failed. */
  function WrittenFrom(ps: seq<Plan>, i: nat): (w: nat)
    requires i <= |ps|
    ensures i <= w <= |ps|
  {
    var k := FirstThrow(ps, i);
    if k < |ps| && ps[k].copies then k + 1 else k
  }

  /** A file the loop does not write is left as it was. */
  lemma {:induction false} BatchFromDiskElsewhere(st: State, ps: seq<Plan>, i: nat, place: Place)
    requires Feasible(ps) && i <= |ps|
    requires forall j :: i <= j < WrittenFrom(ps, i) ==> ps[j].spot != place
    ensures var r := BatchFrom(st, ps, i);
            && (place in r.state.disk <==> place in st.disk)
            && (place in st.disk ==> r.state.disk[place] == st.disk[place])
    decreases |ps| - i
  {
    if i < |ps| {
      var step := IngestOne(st, ps[i]);
      if step.Ingested? {
        assert ps[i].spot != place;
        assert WrittenFrom(ps, i + 1) == WrittenFrom(ps, i);
        BatchFromDiskElsewhere(step.state, ps, i + 1, place);
      } else if ps[i].copies {
        assert ps[i].spot != place;
      }
    }
  }

  /** A file the loop writes holds its bytes when the loop stops, unless a
      later written file reused the same place (the copy replaces an
      existing file). */
  lemma {:induction false} BatchFromDiskWritten(st: State, ps: seq<Plan>, i: nat, j: nat)
    requires Feasible(ps) && i <= |ps| && i <= j < WrittenFrom(ps, i)
    requires forall m :: j < m < WrittenFrom(ps, i) ==> ps[m].spot != ps[j].spot
    ensures var r := BatchFrom(st, ps, i);
            ps[j].spot in r.state.disk && r.state.disk[ps[j].spot] == ps[j].bytes
    decreases |ps| - i
  {
    var step := IngestOne(st, ps[i]);
    if step.Ingested? {
      assert WrittenFrom(ps, i + 1) == WrittenFrom(ps, i);
      if j == i {
        BatchFromDiskElsewhere(step.state, ps, i + 1, ps[i].spot);
      } else {
        BatchFromDiskWritten(step.state, ps, i + 1, j);
      }
    }
  }

  /** The per-file answer of the whole loop: every file before the first
      throwing one is saved, the call fails exactly when some file throws,
      and the failure names that file's stored name. */
  lemma BatchAnswer(rule: ContentRule, st: State, p: Platform, files: seq<MultipartFile>, ios: seq<Io>)
    requires |ios| == |files|
    ensures var r := Batch(rule, st, p, files, ios);
            var k := |r.saved|;
            && k <= |files|
            && (forall j :: 0 <= j < k ==> !IoFails(rule, files[j], ios[j]))
            && (r.failure.None? <==> k == |files|)
            && (r.failure.Some? ==>
                  k < |files| && IoFails(rule, files[k], ios[k])
                  && r.failure.value == FailedToStore(StoredName(p, files[k], ios[k])))
  {
    var ps := Plans(rule, p, files, ios);
    PlansAreFeasible(rule, p, files, ios);
    BatchFromAnswer(st, ps, 0);
  }

  /** The `j`-th plan saves the record built for the `j`-th file. */
  lemma PlanRecord(rule: ContentRule, p: Platform, files: seq<MultipartFile>, ios: seq<Io>, j: nat)
    requires |ios| == |files| && j < |files|
    ensures Plans(rule, p, files, ios)[j].record == UploadedRecord(rule, p, files[j], ios[j])
  {
  }

  /** The `j`-th saved record is the record built for the `j`-th file. */
  lemma BatchRecordAt(rule: ContentRule, st: State, p: Platform, files: seq<MultipartFile>, ios: seq<Io>, j: nat)
    requires |ios| == |files| && j < |Batch(rule, st, p, files, ios).saved|
    ensures j < |files|
    ensures Batch(rule, st, p, files, ios).saved[j] == UploadedRecord(rule, p, files[j], ios[j]).(id := Some(st.store.nextId + j))
  {
    var ps := Plans(rule, p, files, ios);
    PlansAreFeasible(rule, p, files, ios);
    BatchSavedAt(st, ps, j);
    PlanRecord(rule, p, files, ios, j);
  }

  /** The saved records, in file order: each is the record built for its
      file, under the id `nextId + j`. */
  lemma BatchRecords(rule: ContentRule, st: State, p: Platform, files: seq<MultipartFile>, ios: seq<Io>)
    requires |ios| == |files|
    ensures var r := Batch(rule, st, p, files, ios);
            forall j {:trigger r.saved[j]} :: 0 <= j < |r.saved| ==>
              j < |files| && r.saved[j] == UploadedRecord(rule, p, files[j], ios[j]).(id := Some(st.store.nextId + j))
  {
    var r := Batch(rule, st, p, files, ios);
    forall j | 0 <= j < |r.saved|
      ensures j < |files| && r.saved[j] == UploadedRecord(rule, p, files[j], ios[j]).(id := Some(st.store.nextId + j))
    {
      BatchRecordAt(rule, st, p, files, ios, j);
    }
  }

  /** What the loop leaves in the table: every earlier row untouched, every
      saved record stored (also when a later file threw), and no row beyond
      one fresh consecutive id per saved record. */
  lemma BatchTable(rule: ContentRule, st: State, p: Platform, files: seq<MultipartFile>, ios: seq<Io>)
    requires |ios| == |files| && Valid(st.store)
    ensures var r := Batch(rule, st, p, files, ios);
            var n0 := st.store.nextId;
            && (forall id :: id in st.store.docs ==> id in r.state.store.docs && r.state.store.docs[id] == st.store.docs[id])
            && (forall j :: 0 <= j < |r.saved| ==> Stored(r.state.store, r.saved[j]))
            && r.state.store.nextId == n0 + |r.saved|
            && (forall id :: id in r.state.store.docs <==> id in st.store.docs || n0 <= id < n0 + |r.saved|)
  {
    var ps := Plans(rule, p, files, ios);
    PlansAreFeasible(rule, p, files, ios);
    BatchFromAnswer(st, ps, 0);
    BatchFromIds(st, ps, 0);
    BatchFromKeepsRows(st, ps, 0);
    BatchFromSavedStay(st, ps, 0);
  }

  /** No two files of the request are copied to the same file. */
  predicate DistinctTargets(p: Platform, files: seq<MultipartFile>, ios: seq<Io>)
    requires |ios| == |files|
  {
    forall j, m :: 0 <= j < m < |files| ==> Spot(p, files[j], ios[j]) != Spot(p, files[m], ios[m])
  }

  /** A file that no file of the request targets is left as it was. */
  lemma BatchDiskElsewhere(rule: ContentRule, st: State, p: Platform, files: seq<MultipartFile>, ios: seq<Io>, place: Place)
    requires |ios| == |files|
    requires forall j :: 0 <= j < |files| ==> Spot(p, files[j], ios[j]) != place
    ensures var r := Batch(rule, st, p, files, ios);
            (place in r.state.disk <==> place in st.disk)
            && (place in st.disk ==> r.state.disk[place] == st.disk[place])
  {
    var ps := Plans(rule, p, files, ios);
    PlansAreFeasible(rule, p, files, ios);
    forall j | 0 <= j < WrittenFrom(ps, 0)
      ensures ps[j].spot != place
    {
      assert ps[j] == PlanFor(rule, p, files[j], ios[j]);
    }
    BatchFromDiskElsewhere(st, ps, 0, place);
  }

  /** With distinct targets, every saved file's bytes sit at its target when
      the loop stops, and so do the bytes of a file whose copy went through
      before its read-back failed (an orphan without a record). */
  lemma BatchDiskWritten(rule: ContentRule, st: State, p: Platform, files: seq<MultipartFile>, ios: seq<Io>)
    requires |ios| == |files| && DistinctTargets(p, files, ios)
    ensures var r := Batch(rule, st, p, files, ios);
            var k := |r.saved|;
            && (forall j :: 0 <= j < k ==>
                  Spot(p, files[j], ios[j]) in r.state.disk && r.state.disk[Spot(p, files[j], ios[j])] == files[j].bytes)
            && (r.failure.Some? && k < |files| && ios[k].copyOk ==>
                  Spot(p, files[k], ios[k]) in r.state.disk && r.state.disk[Spot(p, files[k], ios[k])] == files[k].bytes)
  {
    var ps := Plans(rule, p, files, ios);
    var r := Batch(rule, st, p, files, ios);
    PlansAreFeasible(rule, p, files, ios);
    BatchFromAnswer(st, ps, 0);
    var w := WrittenFrom(ps, 0);
    var k := |r.saved|;
    assert k == FirstThrow(ps, 0);
    forall j | 0 <= j < w
      ensures ps[j].spot in r.state.disk && r.state.disk[ps[j].spot] == ps[j].bytes
    {
      forall m | j < m < w
        ensures ps[m].spot != ps[j].spot
      {
        assert ps[m] == PlanFor(rule, p, files[m], ios[m]) && ps[j] == PlanFor(rule, p, files[j], ios[j]);
      }
      BatchFromDiskWritten(st, ps, 0, j);
    }
    forall j | 0 <= j < w
      ensures ps[j] == PlanFor(rule, p, files[j], ios[j])
    {
    }
  }
}

=== FILE: java_text.dfy ===
/** The few `java.lang.String` behaviours the document code relies on. */
module JavaText {
  import opened Wrappers

  /** String concatenation in Java renders a null reference as the text "null". */
  function Show(s: Option<string>): string
  {
    match s
    case Some(v) => v
    case None => "null"
  }

  /** `String.startsWith`: a case-sensitive, character-by-character prefix check. */
  predicate StartsWith(s: string, prefix: string)
  {
    |prefix| <= |s| && s[..|prefix|] == prefix
  }

  /** `String.contains`: `sub` occurs at some offset of `s`. */
  predicate Contains(s: string, sub: string)
  {
    exists i :: 0 <= i <= |s| && StartsWith(s[i..], sub)
  }

  /** Every string contains the empty string. */
  lemma ContainsEmpty(s: string)
    ensures Contains(s, "")
  {
    assert StartsWith(s[0..], "");
  }
}

=== FILE: wrappers.dfy ===
/** Null-or-value and value-or-error wrappers used throughout the model.
    `Option` stands for a Java reference that may be null; `Result` stands for
    a call that either returns normally or throws. */
module Wrappers {

  datatype Option<+T> = None | Some(value: T)

  datatype Result<+R, +E> = Success(value: R) | Failure(error: E)
}
